=== FILE: README.md ===
# Tournament sign-up server: a Dafny model

This project models the core of a small Express server. The public page collects two-player
tournament entries. A staff member who knows a shared password can list, search, export and
delete the stored groups. Everything lives in `main.js`. The model covers its logic as pure
functions over immutable datatypes:

- `text.dfy` (`Text`): ASCII `trim` and `toLowerCase`, a substring test with its reference
  meaning, `join`, and character counting.
- `records.dfy` (`Records`): the submitted payload (`Payload`, `PlayerForm`, where every field
  may be missing), the stored `Member` and `Group`, and the `Store` of groups. The store stands
  in for the document database. It assigns ids from a counter.
- `submission.dfy` (`Submission`): `normalizeEmail`, the ordered validation chain of
  `POST /submit`, the construction of the two members, and the single write on success.
- `csv.dfy` (`Csv`): `csvSafe` and the 14-column export. The encoder is paired with a reader
  for quoted and bare fields in the style of section 2 of RFC 4180. Reading an export back
  gives the header and every group's row, field for field.
- `html.dfy` (`Html`): `escapeHtml` written as the source's three chained global replacements.
  It is proved equal to per-character escaping and is undone by an entity decoder. The file
  also has the escaped cells of a dashboard row and the search box.
- `roster.dfy` (`Roster`): newest-first ordering, the literal case-insensitive search with its
  regular-expression escaping, and delete-by-id.
- `routes.dfy` (`Routes`): one client's session flag and the request dispatcher. It covers the
  login, the logout and the three staff-only routes, each of which checks the flag first. The
  delete route takes the `:id` path text and the store's cast of it to a group id. The
  dispatcher `Routes.Handle` sends a delete to the corrected `Routes.DeleteByPath`, which
  treats path text the cast rejects as a no-op (see "## Findings"). The handler as written is
  kept beside it as `Routes.DeleteByPathAsWritten`.

Where the code and its documentation differ, the model follows the code:

- An export row for a missing member has an empty field in each of that member's columns
  except the fee column. That column reads `no`, because the row prints the fee flag as
  yes/no (main.js:127).
- The '@' check on e-mails applies only after the player 1 name, the group flag and the
  player 2 name have passed. An '@' does not win over those earlier failures.
- A failed login leaves the session as it was. It does not log an already-authenticated
  session out (main.js:92-93).
- The password in force is `TEACHER_PASS` or else `Arkvic`, so it is never empty. The
  "non-empty password" guard therefore never refuses a login by itself (main.js:12, 92).

## Model

| member | source | states |
|---|---|---|
| Text.Lower | main.js:55 | the result has the input's length and holds at each position the lower-case form of the input's character, so only ASCII capitals change |
| Text.Trim | main.js:55 | the trimmed text is a contiguous part of the input, only white space is removed around it, and it neither starts nor ends with white space |
| Text.TrimEmptyIffAllSpace | main.js:55-56 | trimming yields the empty string exactly when the input is all white space |
| Text.LowerProperties | main.js:55 | lower-casing leaves no upper-case letter, changes no other character, and is idempotent |
| Text.ContainsIffOccurs | main.js:111-112 | the scanning substring test holds exactly when the pattern occurs at some position of the text |
| Submission.NormalizeEmail | main.js:52-58 | rejection exactly when the raw text holds '@'; empty result exactly for empty or all-white-space input; otherwise the trimmed lower-cased local part followed by `@arkvictoria.org`, with exactly one '@' |
| Submission.NormalizeEmailTwice | main.js:52-58 | normalising a normalised address again keeps an empty one empty and rejects a non-empty one |
| Submission.BuildMember | main.js:68-71 | the name is copied; a present non-empty form, year, experience, reason or `past` is copied, and a missing or empty one becomes empty text (`no` for `past`); `feePaid` holds exactly when the fee is `yes`; the e-mail is the normalised one |
| Submission.Validate | main.js:47-73 | the first violated rule of the five (player 1 name, group flag, player 2 name, '@' in an e-mail, fee) decides the message; success exactly when no rule is violated, and then exactly two members are built and the group fee flag is set |
| Submission.FeeGate | main.js:64-66 | past the first four rules, a submission is accepted exactly when one of the two fees is `yes`, and otherwise fails with the fee message |
| Submission.AtSignRejected | main.js:60-62 | with both names and the group flag accepted, an '@' in either e-mail fails with its message whatever the fees say |
| Submission.SoloEntryRejected | main.js:48-49 | with a player 1 name, a group flag other than `yes` always fails with the group message |
| Submission.Submit | main.js:73-75 | a rejected payload leaves the store unchanged; an accepted one appends exactly one group with a fresh id, the built members, a paid group fee and the given time |
| Submission.SubmitKeepsStoreValid | main.js:73-75 | a submission keeps the store's ids unique and below the next id |
| Csv.CsvSafe | main.js:135 | the field starts and ends with a double quote, and its interior undoubles to the input |
| Csv.CsvSafeInjective | main.js:135 | two fields with the same encoding are equal |
| Csv.MemberColumns | main.js:125-127 | a present member gives its name, year, form, e-mail, fee (`yes` exactly when paid, otherwise `no`) and played-before; a missing one gives empty text in each column and `no` for the fee |
| Csv.RowFields | main.js:124-127 | a group's row has the header's 14 fields: both members' six columns, the group fee as `yes` when paid and `no` otherwise, and the rendered creation time |
| Csv.HeaderLineReadsBack | main.js:123 | the header line reads back as exactly the 14 header names, written without quotes |
| Csv.RowLineReadsBack | main.js:124-128 | a group's line reads back as exactly that group's 14 fields, whatever text they hold |
| Csv.RecordRoundTrip | main.js:127 | fields written through `csvSafe` and joined with commas read back field for field |
| Csv.DocumentRoundTrip | main.js:132 | records written one per line and joined with line feeds read back record for record |
| Csv.ExportBody | main.js:121-132 | reading the export back yields exactly the 14 header fields followed by each group's 14 row fields, in the given order, whatever text the fields hold |
| Csv.ExportShape | main.js:122-132 | the export reads as one record more than there are groups, each of 14 fields |
| Html.EscapeHtml | main.js:7 | the three chained replacements equal escaping each character on its own, because '&' is replaced first |
| Html.UnescapeEscapeHtml | main.js:7 | decoding the entities of an escaped text restores it |
| Html.EscapeHtmlInjective | main.js:7 | two texts with the same escaping are equal |
| Html.EscapeHtmlSafe | main.js:7 | the escaped text holds no '<' or '>', and every '&' in it starts an entity |
| Html.EscapeHtmlKeepsQuotes | main.js:7 | escaping keeps every double quote and leaves text without '&', '<' or '>' unchanged |
| Html.DashboardCells | main.js:237-249 | a row's nine named cells are free of markup (no '<' or '>', and every '&' starts an entity); each name cell decodes to its member's name; the year, form, experience, played-before and e-mail cells decode to the first member's text, joined by ` / ` to the second's when there is a second member; the fee cells read `yes`/`no` the same way, and the group-fee cell `yes` exactly when the group fee is paid |
| Html.SearchBoxAsWritten | main.js:257 | the search input as written; a query without a double quote reads back from the `value` attribute unchanged |
| Html.SearchBoxAsWrittenBreaksOut | main.js:257 | a query starting with a double quote ends the attribute at once, so the value read back is empty and the rest of the query becomes markup |
| Html.EscapeAttribute | main.js:257 | the attribute-safe escaping holds no double quote and no markup and decodes to its input |
| Html.SearchBox | main.js:257 | with the corrected escaping, the attribute value read back decodes to the query |
| Roster.SortNewestFirst | main.js:114 | the listing holds the same groups, ordered by descending creation time |
| Roster.EscapeRegex | main.js:111 | the escaped query reads as literal characters only, spelling the query |
| Roster.MatchesGroup | main.js:112 | the scan over the members finds a match exactly when some member's name, form, year or e-mail contains the query without regard to case |
| Roster.FilterGroups | main.js:110-112 | each group is kept as often as it is stored when some member's name, form, year or e-mail contains the query without regard to case, and dropped otherwise |
| Roster.ListGroups | main.js:108-114 | the listing is newest first and holds all stored groups for an empty trimmed query, else exactly the matching ones |
| Roster.SearchExample | main.js:111-112 | a member named "Alice Smith" is found by `smith`, `SMITH` and `ali` |
| Roster.DeleteOne | main.js:101 | deleting an absent id changes nothing; a present one removes exactly one group and keeps every group with another id |
| Roster.DeleteOneUnique | main.js:101 | with unique ids, no group with the deleted id remains and the ids stay unique |
| Roster.DeleteGroup | main.js:101 | every group left was stored before, every stored group with another id is kept, an absent id changes nothing, a present one removes exactly one group, and the id counter is kept |
| Roster.DeleteGroupValid | main.js:101 | deleting keeps the store valid, removes the id, and deleting the same id again changes nothing |
| Routes.ConfiguredPassword | main.js:12 | the password in force is never empty and is the configured one when that is non-empty |
| Routes.SubmitRoute | main.js:45-80 | 400 with the failed rule's message and no change, or 200 with the fresh id, where the store becomes the old groups followed by exactly the group built from the payload, with the group fee paid and the given time, and the next id moves on by one |
| Routes.LoginRoute | main.js:90-94 | the session becomes authenticated exactly when the password in force is non-empty and equals the given one; otherwise nothing changes and the form shows the error |
| Routes.LogoutRoute | main.js:96 | logging out always leaves the session unauthenticated and redirects to the login page |
| Routes.DeleteRoute | main.js:99-103 | 401 and no change without a session; otherwise the delete happens and the dashboard redirect follows |
| Routes.DashboardRoute | main.js:106-117 | a redirect to login without a session; otherwise the matching groups newest first with the trimmed query |
| Routes.ExportRoute | main.js:119-133 | 401 without a session; otherwise a CSV body that reads back as the header followed by the rows of the stored groups, newest first, each group's 14 fields in turn |
| Routes.DeleteByPathAsWritten | main.js:99-103 | the delete as written: 401 without a session; path text the cast rejects leaves no reply and ends the process; otherwise the cast id is deleted and the dashboard follows |
| Routes.DeleteMalformedIdEndsProcess | main.js:101 | a logged-in delete of `abc` ends the process as written, unlike the corrected handler |
| Routes.DeleteByPath | main.js:99-103 | the corrected delete always replies and keeps the session; rejected path text gives the dashboard redirect with nothing changed; any other path behaves as written |
| Routes.Handle | main.js:43-133 | only the submission and delete routes write to the store, and only the login and logout routes change the session |
| Routes.DeleteByPathNoOp | main.js:99-103 | for a logged-in client, path text the cast rejects and a well-formed id that is not stored both leave the state unchanged and redirect to the dashboard |
| Routes.StaffRoutesNeedLogin | main.js:99-121 | every staff route refuses an unauthenticated session with 401 or a login redirect and changes nothing |
| Routes.LoginOpensStaffRoutes | main.js:90-121 | after a login with the password in force, no staff route answers 401 or sends the client back to the login page |
| Routes.LogoutClosesStaffRoutes | main.js:96-121 | after a logout, every staff route is refused |
| Routes.EmptyPasswordNeverLogsIn | main.js:90-94 | a missing or empty password never authenticates against the password in force |
| Routes.DeleteAbsentIsNoOp | main.js:99-103 | deleting an id that is not stored changes nothing and answers with the same redirect as any other delete |
| Routes.HandleKeepsStoreValid | main.js:45-133 | no request breaks the uniqueness and freshness of the store's ids |
| Routes.SubmittedGroupListed | main.js:68-116 | an accepted submission is listed on the unfiltered dashboard; its row is markup-free, its name cells decode to the submitted names, and its other text cells decode to both built members' text joined by ` / ` |

## Left out

- HTTP transport: routing, status codes, headers and redirects are modelled as `Reply` values.
- Body parsing, dotenv configuration and `app.listen` are I/O. The password in force is a
  parameter, computed by `ConfiguredPassword`.
- MongoDB persistence is left out: the connection, `.lean()`, and the `_id` values. Ids are
  modelled as a counter in `Store`.
- Schema enforcement on save is left out. One example is the `past` enum, which turns a
  `past` other than `yes`/`no` into the "Server error" reply. The generic 500 path is not
  modelled.
- Runtime type coercion is left out. Fields are `Option<string>`, but the JSON and extended
  URL-encoded body parsers (main.js:39-40) can deliver other types. Only some of them reach the
  500 reply: a number, boolean or object e-mail has no `includes`, so `normalizeEmail` throws
  (main.js:54). Others are accepted. A numeric name passes `!p1.name` (main.js:48) and is saved
  as text. An array e-mail such as `["a@b"]` passes `raw.includes('@')`, which tests the array's
  elements, and is stored as `a@b@arkvictoria.org`, getting round the '@' rule.
- Unicode is left out. `trim` and `toLowerCase` cover ASCII only. Full case folding and
  Unicode white space are not modelled.
- The regular-expression engine is left out. The search is a case-insensitive substring test.
  `Roster.EscapeRegex` ties it to the escaped pattern: the pattern is a run of
  literal characters spelling the query.
- Sessions are left out: cookie signing, session storage and the one-hour expiry. One
  client's session is a boolean flag.
- Dates are left out. Creation times are naturals supplied by the caller. `toISOString` is a
  parameter `iso`. The dashboard's `toLocaleString` cell is not modelled.
- HTML templates are left out: the entry form, the login page and the dashboard markup. The
  exceptions are the nine escaped text cells of a row and the search box. The group count
  and the delete button are not modelled.
- Routes.DeleteRoute: ids are naturals, so every id it receives is well formed.
  `Routes.DeleteAbsentIsNoOp` speaks of such ids only. Path text the store cannot cast is modelled
  separately, by `Routes.DeleteByPathAsWritten` and `Routes.DeleteByPath`. The cast itself is a
  parameter.
- Routes.DashboardRoute: the query `q` is modelled as `Option<string>`. Express's default
  extended query parser turns `?q=a&q=b` into an array and `?q[x]=1` into an object. Neither
  has `trim`, so `(req.query.q||'').trim()` (main.js:108) throws in the `async` handler. The
  rejection is not caught and the process ends. The model does not cover these inputs.
- Store failures are left out, such as an unreachable database. The dashboard and export routes
  await the store outside any `try` (main.js:114, 121), so a failure there ends the process as
  the delete does.
- Roster.SortNewestFirst: the database does not fix the order of groups with equal creation
  times. The model keeps their stored order, which is one of the orders the database may
  return.

## Findings

| source | as written | input that shows it | evidently intended | confidence | as-written member | corrected member |
|---|---|---|---|---|---|---|
| main.js:101 | `await Group.deleteOne({_id:req.params.id})` runs outside any `try`, so a cast error on the path id rejects the handler's promise, which Express 4 does not catch; no reply is sent and Node ends the process | a logged-in `POST /teacher/delete/abc` | text the cast rejects names no stored group, so the delete is the same no-op as for an absent id: nothing changes, the client is redirected to the dashboard, and the server keeps running | medium, not executed | Routes.DeleteMalformedIdEndsProcess | Routes.DeleteByPath |
| main.js:257 | the search query is put back into the double-quoted `value` attribute through `escapeHtml`, which leaves double quotes as they are | the query `" autofocus onfocus="alert(1)` closes the attribute and adds an event handler to the staff page | the query stays inside the attribute; double quotes are escaped as `&quot;` too | medium, not executed | Html.SearchBoxAsWrittenBreaksOut | Html.SearchBox |

=== FILE: csv.dfy ===
/** The CSV export (main.js:119-135): field quoting by `csvSafe`, the
    14-column header and per-group rows, and the document joined with line
    feeds. A parser for quoted and bare fields in the style of section 2 of
    RFC 4180 reads an export back, and the encoder is proved against it:
    parsing an export gives back the header and every row, field for field. */
module Csv {
  import opened Text
  import opened Records

  /** Doubles every double quote (section 2, rule 7, of RFC 4180). */
  function Double(s: string): (r: string)
    ensures |r| == |s| + Count('"', s)
    decreases |s|
  {
    if |s| == 0 then ""
    else (if s[0] == '"' then "\"\"" else [s[0]]) + Double(s[1..])
  }

  /** Undoes `Double`: `None` when the text holds a quote that is not
      followed by a second one. */
  function Undouble(t: string): Option<string>
    decreases |t|
  {
    if |t| == 0 then Some("")
    else if t[0] != '"' then
      match Undouble(t[1..])
      case None => None
      case Some(u) => Some([t[0]] + u)
    else if |t| >= 2 && t[1] == '"' then
      match Undouble(t[2..])
      case None => None
      case Some(u) => Some("\"" + u)
    else None
  }

  lemma {:induction false} UndoubleDouble(s: string)
    ensures Undouble(Double(s)) == Some(s)
    decreases |s|
  {
    if |s| > 0 {
      UndoubleDouble(s[1..]);
      var d := Double(s[1..]);
      if s[0] == '"' {
        assert Double(s) == "\"\"" + d;
        assert Double(s)[2..] == d;
      } else {
        assert Double(s) == [s[0]] + d;
        assert Double(s)[1..] == d;
      }
      assert s == [s[0]] + s[1..];
    }
  }

  /** `csvSafe`: the field enclosed in double quotes with every interior
      quote doubled. The interior undoubles to the input, so distinct fields
      never encode alike. */
  function CsvSafe(s: string): (r: string)
    ensures |r| >= 2 && r[0] == '"' && r[|r| - 1] == '"'
    ensures Undouble(r[1..|r| - 1]) == Some(s)
  {
    var r := "\"" + Double(s) + "\"";
    assert r[1..|r| - 1] == Double(s);
    UndoubleDouble(s);
    r
  }

  lemma CsvSafeInjective(a: string, b: string)
    requires CsvSafe(a) == CsvSafe(b)
    ensures a == b
  {
    var r := CsvSafe(a);
    assert Undouble(r[1..|r| - 1]) == Some(a);
  }

  // ---------------------------------------------------------------------
  // Reading CSV back.

  /** Reads the rest of a quoted field, just after its opening quote: a pair
      of quotes stands for one quote, a single quote closes the field.
      Returns the field and the text after the closing quote. */
  function ParseQuotedBody(s: string): (r: Option<(string, string)>)
    ensures r.Some? ==> |r.value.1| < |s|
    decreases |s|
  {
    if |s| == 0 then None
    else if s[0] != '"' then
      match ParseQuotedBody(s[1..])
      case None => None
      case Some((f, rest)) => Some(([s[0]] + f, rest))
    else if |s| >= 2 && s[1] == '"' then
      match ParseQuotedBody(s[2..])
      case None => None
      case Some((f, rest)) => Some(("\"" + f, rest))
    else Some(("", s[1..]))
  }

  predicate IsDelimiter(c: char) {
    c == ',' || c == '\n'
  }

  /** Length of the unquoted field at the start of `s`: the position of the
      first comma or line feed, or the whole text when there is none. */
  function BareLength(s: string): (n: nat)
    ensures n <= |s| && (n == |s| || IsDelimiter(s[n]))
    ensures forall k :: 0 <= k < n ==> !IsDelimiter(s[k])
    decreases |s|
  {
    if |s| == 0 || IsDelimiter(s[0]) then 0 else 1 + BareLength(s[1..])
  }

  /** Reads an unquoted field up to the next comma or line feed. */
  function ParseBare(s: string): (r: (string, string))
    ensures r.0 + r.1 == s
    ensures r.1 == [] || IsDelimiter(r.1[0])
  {
    var n := BareLength(s);
    assert s[..n] + s[n..] == s;
    (s[..n], s[n..])
  }

  function ParseField(s: string): (r: Option<(string, string)>)
    ensures r.Some? ==> |r.value.1| <= |s|
  {
    if |s| > 0 && s[0] == '"' then ParseQuotedBody(s[1..])
    else Some(ParseBare(s))
  }

  /** Reads the comma-separated fields of one record. The text returned
      after the record is empty or starts with the line feed that ends it. */
  function ParseRecord(s: string): (r: Option<(seq<string>, string)>)
    ensures r.Some? ==> |r.value.0| > 0 && |r.value.1| <= |s|
    ensures r.Some? ==> r.value.1 == [] || r.value.1[0] == '\n'
    decreases |s|
  {
    match ParseField(s)
    case None => None
    case Some((f, rest)) =>
      if |rest| == 0 || rest[0] == '\n' then Some(([f], rest))
      else if rest[0] == ',' then
        match ParseRecord(rest[1..])
        case None => None
        case Some((fs, tail)) => Some(([f] + fs, tail))
      else None
  }

  /** Reads a whole document: records separated by line feeds. */
  function ParseDocument(s: string): (r: Option<seq<seq<string>>>)
    ensures r.Some? ==> |r.value| > 0
    decreases |s|
  {
    match ParseRecord(s)
    case None => None
    case Some((rec, rest)) =>
      if |rest| == 0 then Some([rec])
      else
        match ParseDocument(rest[1..])
        case None => None
        case Some(recs) => Some([rec] + recs)
  }

  // ---------------------------------------------------------------------
  // Writing CSV.

  /** A field that may be written without quotes: it holds no quote, comma
      or line feed. */
  predicate Bare(f: string) {
    forall k :: 0 <= k < |f| ==> f[k] != '"' && !IsDelimiter(f[k])
  }

  function EncodeCell(f: string, quoted: bool): string {
    if quoted then CsvSafe(f) else f
  }

  function EncodeAll(fields: seq<string>, quoted: bool): (r: seq<string>)
    ensures |r| == |fields|
    decreases |fields|
  {
    if |fields| == 0 then [] else [EncodeCell(fields[0], quoted)] + EncodeAll(fields[1..], quoted)
  }

  predicate Encodable(fields: seq<string>, quoted: bool) {
    quoted || forall i :: 0 <= i < |fields| ==> Bare(fields[i])
  }

  /** What may follow a field: nothing, a comma or a line feed. */
  predicate FieldEnd(rest: string) {
    rest == [] || IsDelimiter(rest[0])
  }

  lemma {:induction false} QuotedBodyRoundTrip(x: string, rest: string)
    requires rest == [] || rest[0] != '"'
    ensures ParseQuotedBody(Double(x) + "\"" + rest) == Some((x, rest))
    decreases |x|
  {
    var q := "\"" + rest;
    assert Double(x) + "\"" + rest == Double(x) + q;
    if |x| == 0 {
      assert Double(x) + q == q;
      assert q[1..] == rest;
      assert |q| >= 2 ==> q[1] == rest[0];
    } else {
      QuotedBodyRoundTrip(x[1..], rest);
      assert Double(x[1..]) + "\"" + rest == Double(x[1..]) + q;
      QuotedBodyStep(x, q);
      assert x == [x[0]] + x[1..];
    }
  }

  /** One step of `QuotedBodyRoundTrip`: the first character of `x`, doubled
      or not, is read back in front of what the rest reads as. */
  lemma QuotedBodyStep(x: string, q: string)
    requires |x| > 0
    ensures ParseQuotedBody(Double(x[1..]) + q).Some? ==>
      ParseQuotedBody(Double(x) + q)
        == Some(([x[0]] + ParseQuotedBody(Double(x[1..]) + q).value.0,
                 ParseQuotedBody(Double(x[1..]) + q).value.1))
  {
    var t := Double(x[1..]) + q;
    if x[0] == '"' {
      assert Double(x) == "\"\"" + Double(x[1..]);
      assert Double(x) + q == "\"\"" + t;
      assert (Double(x) + q)[2..] == t;
    } else {
      assert Double(x) == [x[0]] + Double(x[1..]);
      assert Double(x) + q == [x[0]] + t;
      assert (Double(x) + q)[1..] == t;
    }
  }

  lemma BareRoundTrip(f: string, rest: string)
    requires Bare(f) && FieldEnd(rest)
    ensures ParseBare(f + rest) == (f, rest)
  {
    var s := f + rest;
    assert forall k :: 0 <= k < |f| ==> s[k] == f[k];
    assert |f| < |s| ==> s[|f|] == rest[0];
    BareLengthIsFirstDelimiter(s, |f|);
    assert s[..|f|] == f && s[|f|..] == rest;
  }

  /** `BareLength` is the one position that ends a run free of delimiters
      with a delimiter or the end of the text. */
  lemma {:induction false} BareLengthIsFirstDelimiter(s: string, m: nat)
    requires m <= |s| && (m == |s| || IsDelimiter(s[m]))
    requires forall k :: 0 <= k < m ==> !IsDelimiter(s[k])
    ensures BareLength(s) == m
    decreases m
  {
    if m > 0 {
      BareLengthIsFirstDelimiter(s[1..], m - 1);
    }
  }

  /** Any field, written as the export writes it, reads back exactly. */
  lemma FieldRoundTrip(f: string, quoted: bool, rest: string)
    requires quoted || Bare(f)
    requires FieldEnd(rest)
    ensures ParseField(EncodeCell(f, quoted) + rest) == Some((f, rest))
  {
    if quoted {
      var s := CsvSafe(f) + rest;
      assert s[1..] == Double(f) + "\"" + rest;
      QuotedBodyRoundTrip(f, rest);
    } else {
      BareRoundTrip(f, rest);
      if |f| > 0 {
        assert (f + rest)[0] == f[0];
      }
    }
  }

  /** A record written with comma separators reads back field for field. */
  lemma {:induction false} RecordRoundTrip(fields: seq<string>, quoted: bool, rest: string)
    requires |fields| > 0 && Encodable(fields, quoted)
    requires rest == [] || rest[0] == '\n'
    ensures ParseRecord(JoinWith(',', EncodeAll(fields, quoted)) + rest) == Some((fields, rest))
    decreases |fields|
  {
    if |fields| == 1 {
      RecordOfOne(fields, quoted, rest);
    } else {
      EncodeAllTail(fields, quoted);
      RecordRoundTrip(fields[1..], quoted, rest);
      RecordCons(fields, quoted, rest);
    }
  }

  lemma RecordOfOne(fields: seq<string>, quoted: bool, rest: string)
    requires |fields| == 1 && Encodable(fields, quoted)
    requires rest == [] || rest[0] == '\n'
    ensures ParseRecord(JoinWith(',', EncodeAll(fields, quoted)) + rest) == Some((fields, rest))
  {
    assert JoinWith(',', EncodeAll(fields, quoted)) == EncodeCell(fields[0], quoted);
    assert !quoted ==> Bare(fields[0]);
    FieldRoundTrip(fields[0], quoted, rest);
    assert fields == [fields[0]];
  }

  /** The first field, a comma, then a record that reads back: the whole
      reads back with the first field in front. */
  lemma RecordCons(fields: seq<string>, quoted: bool, rest: string)
    requires |fields| > 1 && Encodable(fields, quoted)
    requires ParseRecord(JoinWith(',', EncodeAll(fields[1..], quoted)) + rest) == Some((fields[1..], rest))
    ensures ParseRecord(JoinWith(',', EncodeAll(fields, quoted)) + rest) == Some((fields, rest))
  {
    var parts := EncodeAll(fields, quoted);
    var after := JoinWith(',', parts[1..]) + rest;
    EncodeAllTail(fields, quoted);
    JoinCons(',', parts, rest);
    FieldRoundTrip(fields[0], quoted, "," + after);
    ParseRecordStep(JoinWith(',', parts) + rest, fields[0], after);
    assert fields == [fields[0]] + fields[1..];
  }

  /** Encoding the fields after the first is the tail of encoding them all,
      and the tail stays encodable. */
  lemma EncodeAllTail(fields: seq<string>, quoted: bool)
    requires |fields| > 0 && Encodable(fields, quoted)
    ensures EncodeAll(fields[1..], quoted) == EncodeAll(fields, quoted)[1..]
    ensures EncodeAll(fields, quoted)[0] == EncodeCell(fields[0], quoted)
    ensures Encodable(fields[1..], quoted)
    ensures quoted || Bare(fields[0])
  {
    if !quoted {
      assert forall i :: 0 <= i < |fields| - 1 ==> fields[1..][i] == fields[i + 1];
    }
  }

  /** One step of reading a record: a field followed by a comma is put in
      front of the record read after the comma. */
  lemma ParseRecordStep(s: string, f: string, after: string)
    requires ParseField(s) == Some((f, "," + after))
    ensures ParseRecord(after).Some? ==>
      ParseRecord(s) == Some(([f] + ParseRecord(after).value.0, ParseRecord(after).value.1))
  {
    assert ("," + after)[1..] == after;
  }

  /** How each line of a document is written: its fields, and whether they
      are quoted. */
  ghost predicate WrittenAs(lines: seq<string>, records: seq<seq<string>>, quoted: seq<bool>) {
    && |lines| == |records| == |quoted|
    && forall i :: 0 <= i < |lines| ==>
         && |records[i]| > 0
         && Encodable(records[i], quoted[i])
         && lines[i] == JoinWith(',', EncodeAll(records[i], quoted[i]))
  }

  /** A document of records written line by line reads back record for
      record. */
  lemma {:induction false} DocumentRoundTrip(lines: seq<string>, records: seq<seq<string>>, quoted: seq<bool>)
    requires |lines| > 0 && WrittenAs(lines, records, quoted)
    ensures ParseDocument(JoinWith('\n', lines)) == Some(records)
    decreases |lines|
  {
    if |lines| == 1 {
      RecordRoundTrip(records[0], quoted[0], "");
      assert JoinWith('\n', lines) == lines[0] + "";
      assert records == [records[0]];
    } else {
      WrittenAsTail(lines, records, quoted);
      DocumentRoundTrip(lines[1..], records[1..], quoted[1..]);
      DocumentCons(lines, records, quoted);
    }
  }

  lemma WrittenAsTail(lines: seq<string>, records: seq<seq<string>>, quoted: seq<bool>)
    requires |lines| > 0 && WrittenAs(lines, records, quoted)
    ensures WrittenAs(lines[1..], records[1..], quoted[1..])
  {
    forall i | 0 <= i < |lines| - 1
      ensures lines[1..][i] == lines[i + 1] && records[1..][i] == records[i + 1]
      ensures quoted[1..][i] == quoted[i + 1]
    {
    }
  }

  /** The first line, a line feed, then a document that reads back: the
      whole reads back with the first record in front. */
  lemma DocumentCons(lines: seq<string>, records: seq<seq<string>>, quoted: seq<bool>)
    requires |lines| > 1 && WrittenAs(lines, records, quoted)
    requires ParseDocument(JoinWith('\n', lines[1..])) == Some(records[1..])
    ensures ParseDocument(JoinWith('\n', lines)) == Some(records)
  {
    var after := JoinWith('\n', lines[1..]);
    JoinCons('\n', lines, "");
    assert JoinWith('\n', lines) + "" == JoinWith('\n', lines) && after + "" == after;
    RecordRoundTrip(records[0], quoted[0], "\n" + after);
    ParseDocumentStep(JoinWith('\n', lines), records[0], after);
    assert records == [records[0]] + records[1..];
  }

  /** One step of reading a document: a record followed by a line feed is
      put in front of the records read after it. */
  lemma ParseDocumentStep(s: string, rec: seq<string>, after: string)
    requires ParseRecord(s) == Some((rec, "\n" + after))
    ensures ParseDocument(after).Some? ==>
      ParseDocument(s) == Some([rec] + ParseDocument(after).value)
  {
    assert ("\n" + after)[1..] == after;
  }

  // ---------------------------------------------------------------------
  // The export.

  const HeaderFields: seq<string> := [
    "First Name", "First Year", "First Form", "First Email", "First FeePaid", "First PlayedBefore",
    "Second Name", "Second Year", "Second Form", "Second Email", "Second FeePaid", "Second PlayedBefore",
    "GroupFeePaid", "CreatedAt"]

  /** The header line, written without quotes. */
  function HeaderLine(): string {
    JoinWith(',', HeaderFields)
  }

  /** The header line reads back as the fourteen header names. */
  lemma HeaderLineReadsBack()
    ensures ParseRecord(HeaderLine()) == Some((HeaderFields, ""))
  {
    HeaderIsBare();
    EncodeAllUnquoted(HeaderFields);
    RecordRoundTrip(HeaderFields, false, "");
    assert HeaderLine() + "" == HeaderLine();
  }

  /** The six columns of the member at position `k` (name, year, form,
      e-mail, fee paid, played before); a missing member gives empty text in
      each column except the fee column, which reads "no". */
  function MemberColumns(ms: seq<Member>, k: nat): (r: seq<string>)
    ensures |r| == 6
    ensures k < |ms| ==> r[0] == ms[k].name && r[1] == ms[k].year && r[2] == ms[k].form
                         && r[3] == ms[k].email && r[5] == ms[k].past
    ensures k >= |ms| ==> r == ["", "", "", "", "no", ""]
    ensures r[4] == (if k < |ms| && ms[k].feePaid then "yes" else "no")
  {
    var m := MemberAt(ms, k);
    [m.name, m.year, m.form, m.email, YesNo(m.feePaid), m.past]
  }

  /** The fourteen fields of a group's row; `iso` renders the creation time. */
  function RowFields(g: Group, iso: Timestamp -> string): (r: seq<string>)
    ensures |r| == |HeaderFields| == 14
    ensures r[..6] == MemberColumns(g.members, 0) && r[6..12] == MemberColumns(g.members, 1)
    ensures r[12] == (if g.groupFeePaid then "yes" else "no")
    ensures r[13] == iso(g.createdAt)
  {
    MemberColumns(g.members, 0) + MemberColumns(g.members, 1) + [YesNo(g.groupFeePaid), iso(g.createdAt)]
  }

  /** A group's row: every field through `csvSafe`, joined with commas. */
  function RowLine(g: Group, iso: Timestamp -> string): string {
    JoinWith(',', EncodeAll(RowFields(g, iso), true))
  }

  /** A group's row reads back as its fourteen fields, whatever text they
      hold. */
  lemma RowLineReadsBack(g: Group, iso: Timestamp -> string)
    ensures ParseRecord(RowLine(g, iso)) == Some((RowFields(g, iso), ""))
  {
    RecordRoundTrip(RowFields(g, iso), true, "");
    assert RowLine(g, iso) + "" == RowLine(g, iso);
  }

  function RowLines(gs: seq<Group>, iso: Timestamp -> string): (r: seq<string>)
    ensures |r| == |gs|
    ensures forall i :: 0 <= i < |gs| ==> r[i] == RowLine(gs[i], iso)
  {
    seq(|gs|, i requires 0 <= i < |gs| => RowLine(gs[i], iso))
  }

  function ExportLines(gs: seq<Group>, iso: Timestamp -> string): (r: seq<string>)
    ensures |r| == |gs| + 1
  {
    [HeaderLine()] + RowLines(gs, iso)
  }

  /** The records the export is meant to carry: the header fields, then
      each group's row fields in order. */
  function ExportRecords(gs: seq<Group>, iso: Timestamp -> string): (r: seq<seq<string>>)
    ensures |r| == |gs| + 1 && r[0] == HeaderFields
    ensures forall i :: 0 <= i < |gs| ==> r[i + 1] == RowFields(gs[i], iso)
  {
    [HeaderFields] + seq(|gs|, i requires 0 <= i < |gs| => RowFields(gs[i], iso))
  }

  /** The export document: the header and one row per group, joined with
      line feeds (not the CR LF of RFC 4180). Reading it back yields the
      14-field header followed by exactly one 14-field record per group,
      holding that group's fields unchanged, whatever text they contain. */
  function ExportBody(gs: seq<Group>, iso: Timestamp -> string): (r: string)
    ensures ParseDocument(r) == Some(ExportRecords(gs, iso))
  {
    ExportLinesRoundTrip(gs, iso);
    JoinWith('\n', ExportLines(gs, iso))
  }

  /** The header names hold no quote, comma or line feed, so the header line
      reads back without quoting. */
  lemma HeaderIsBare()
    ensures Encodable(HeaderFields, false)
  {
    FirstHeadersBare();
    SecondHeadersBare();
  }

  lemma FirstHeadersBare()
    ensures forall i :: 0 <= i < 7 ==> Bare(HeaderFields[i])
  {
    forall i | 0 <= i < 7
      ensures Bare(HeaderFields[i])
    {
    }
  }

  lemma SecondHeadersBare()
    ensures forall i :: 7 <= i < 14 ==> Bare(HeaderFields[i])
  {
    forall i | 7 <= i < 14
      ensures Bare(HeaderFields[i])
    {
    }
  }

  lemma {:induction false} EncodeAllUnquoted(fields: seq<string>)
    ensures EncodeAll(fields, false) == fields
    decreases |fields|
  {
    if |fields| > 0 {
      EncodeAllUnquoted(fields[1..]);
      assert fields == [fields[0]] + fields[1..];
    }
  }

  /** Which export lines are quoted: all but the header. */
  function ExportQuoting(rows: nat): (r: seq<bool>)
    ensures |r| == rows + 1 && !r[0]
    ensures forall i :: 1 <= i <= rows ==> r[i]
  {
    [false] + seq(rows, _ => true)
  }

  /** The export's lines are the header written bare and each group's row
      fields written quoted. */
  lemma ExportWrittenAs(gs: seq<Group>, iso: Timestamp -> string)
    ensures WrittenAs(ExportLines(gs, iso),
                      ExportRecords(gs, iso),
                      ExportQuoting(|gs|))
  {
    var lines := ExportLines(gs, iso);
    var records := ExportRecords(gs, iso);
    var quoted := ExportQuoting(|gs|);
    HeaderIsBare();
    EncodeAllUnquoted(HeaderFields);
    forall i | 0 <= i < |lines|
      ensures |records[i]| > 0 && Encodable(records[i], quoted[i])
      ensures lines[i] == JoinWith(',', EncodeAll(records[i], quoted[i]))
    {
      if i > 0 {
        assert records[i] == RowFields(gs[i - 1], iso) && quoted[i];
        assert lines[i] == RowLines(gs, iso)[i - 1];
      }
    }
  }

  lemma ExportLinesRoundTrip(gs: seq<Group>, iso: Timestamp -> string)
    ensures ParseDocument(JoinWith('\n', ExportLines(gs, iso)))
            == Some(ExportRecords(gs, iso))
  {
    ExportWrittenAs(gs, iso);
    DocumentRoundTrip(ExportLines(gs, iso),
                      ExportRecords(gs, iso),
                      ExportQuoting(|gs|));
  }

  /** The shape of the export: one header record and one record per group,
      each of exactly 14 fields. */
  lemma ExportShape(gs: seq<Group>, iso: Timestamp -> string)
    ensures ParseDocument(ExportBody(gs, iso)).Some?
    ensures |ParseDocument(ExportBody(gs, iso)).value| == |gs| + 1
    ensures forall rec :: rec in ParseDocument(ExportBody(gs, iso)).value ==> |rec| == 14
  {
    ExportRecordsShape(gs, iso);
  }

  lemma ExportRecordsShape(gs: seq<Group>, iso: Timestamp -> string)
    ensures forall rec :: rec in ExportRecords(gs, iso) ==> |rec| == 14
  {
    var recs := ExportRecords(gs, iso);
    forall i | 0 <= i < |recs|
      ensures |recs[i]| == 14
    {
      if i > 0 {
        assert recs[i] == RowFields(gs[i - 1], iso);
      }
    }
  }
}

=== FILE: html.dfy ===
/** HTML escaping for the staff dashboard (main.js:7 and main.js:236-257):
    `escapeHtml` as the three chained global replacements the source
    performs, a per-character reference it is proved equal to, an entity
    decoder it round-trips with, and the escaped cells of a dashboard row. */
module Html {
  import opened Text
  import opened Records

  /** `s.replace(/c/g, rep)`: every occurrence of `c` replaced by `rep`. */
  function ReplaceAll(s: string, c: char, rep: string): string
    decreases |s|
  {
    if |s| == 0 then "" else (if s[0] == c then rep else [s[0]]) + ReplaceAll(s[1..], c, rep)
  }

  lemma {:induction false} ReplaceAllAppend(a: string, b: string, c: char, rep: string)
    ensures ReplaceAll(a + b, c, rep) == ReplaceAll(a, c, rep) + ReplaceAll(b, c, rep)
    decreases |a|
  {
    if |a| == 0 {
      assert a + b == b;
    } else {
      assert (a + b)[1..] == a[1..] + b;
      ReplaceAllAppend(a[1..], b, c, rep);
    }
  }

  lemma {:induction false} ReplaceAllAbsent(s: string, c: char, rep: string)
    requires c !in s
    ensures ReplaceAll(s, c, rep) == s
    decreases |s|
  {
    if |s| > 0 {
      assert s[0] != c;
      ReplaceAllAbsent(s[1..], c, rep);
      assert s == [s[0]] + s[1..];
    }
  }

  /** `escapeHtml` as written: ampersands first, then less-than signs, then
      greater-than signs. */
  function EscapeHtml(s: string): (r: string)
    ensures r == EscapeEach(s, false)
  {
    ChainedPassesArePerChar(s);
    ReplaceAll(ReplaceAll(ReplaceAll(s, '&', "&amp;"), '<', "&lt;"), '>', "&gt;")
  }

  /** The entity a character is written as; with `quotes`, the double quote
      is escaped too (the attribute-safe variant). */
  function EscapeChar(c: char, quotes: bool): string {
    if c == '&' then "&amp;"
    else if c == '<' then "&lt;"
    else if c == '>' then "&gt;"
    else if quotes && c == '"' then "&quot;"
    else [c]
  }

  /** Reference escaping: each character escaped on its own. */
  function EscapeEach(s: string, quotes: bool): string
    decreases |s|
  {
    if |s| == 0 then "" else EscapeChar(s[0], quotes) + EscapeEach(s[1..], quotes)
  }

  /** The three chained passes equal escaping each character on its own:
      because '&' is replaced first, no entity produced by a later pass is
      escaped again. */
  lemma {:induction false} ChainedPassesArePerChar(s: string)
    ensures ReplaceAll(ReplaceAll(ReplaceAll(s, '&', "&amp;"), '<', "&lt;"), '>', "&gt;")
            == EscapeEach(s, false)
    decreases |s|
  {
    if |s| > 0 {
      var c, t := s[0], s[1..];
      assert s == [c] + t;
      ChainedPassesArePerChar(t);
      var a1 := ReplaceAll([c], '&', "&amp;");
      ReplaceAllAppend([c], t, '&', "&amp;");
      var a2 := ReplaceAll(a1, '<', "&lt;");
      ReplaceAllAppend(a1, ReplaceAll(t, '&', "&amp;"), '<', "&lt;");
      ReplaceAllAppend(a2, ReplaceAll(ReplaceAll(t, '&', "&amp;"), '<', "&lt;"), '>', "&gt;");
      EscapeCharByPasses(c);
    }
  }

  lemma ReplaceAllSingle(c: char, x: char, rep: string)
    ensures ReplaceAll([c], x, rep) == if c == x then rep else [c]
  {
    assert [c][1..] == [];
  }

  lemma EscapeCharByPasses(c: char)
    ensures ReplaceAll(ReplaceAll(ReplaceAll([c], '&', "&amp;"), '<', "&lt;"), '>', "&gt;")
            == EscapeChar(c, false)
  {
    ReplaceAllSingle(c, '&', "&amp;");
    var a1 := ReplaceAll([c], '&', "&amp;");
    var a2 := ReplaceAll(a1, '<', "&lt;");
    if c == '&' {
      ReplaceAllAbsent(a1, '<', "&lt;");
      ReplaceAllAbsent(a2, '>', "&gt;");
    } else {
      ReplaceAllSingle(c, '<', "&lt;");
      if c == '<' {
        ReplaceAllAbsent(a2, '>', "&gt;");
      } else {
        ReplaceAllSingle(c, '>', "&gt;");
      }
    }
  }

  /** Decodes the four entities the escapers produce; every other character
      is copied. */
  function Unescape(s: string): string
    decreases |s|
  {
    if StartsWith(s, "&amp;") then "&" + Unescape(s[5..])
    else if StartsWith(s, "&lt;") then "<" + Unescape(s[4..])
    else if StartsWith(s, "&gt;") then ">" + Unescape(s[4..])
    else if StartsWith(s, "&quot;") then "\"" + Unescape(s[6..])
    else if |s| == 0 then ""
    else [s[0]] + Unescape(s[1..])
  }

  lemma {:induction false} UnescapeEscapeEach(s: string, quotes: bool)
    ensures Unescape(EscapeEach(s, quotes)) == s
    decreases |s|
  {
    if |s| > 0 {
      var c, t := s[0], s[1..];
      UnescapeEscapeEach(t, quotes);
      var e := EscapeChar(c, quotes);
      UnescapeEntity(e, EscapeEach(t, quotes), c, quotes);
      assert s == [c] + t;
    }
  }

  /** Decoding one escaped character followed by any text. */
  lemma UnescapeEntity(e: string, rest: string, c: char, quotes: bool)
    requires e == EscapeChar(c, quotes)
    ensures Unescape(e + rest) == [c] + Unescape(rest)
  {
    if c == '&' {
      UnescapeAmp(rest);
    } else if c == '<' {
      UnescapeBracket("&lt;", c, rest);
    } else if c == '>' {
      UnescapeBracket("&gt;", c, rest);
    } else if quotes && c == '"' {
      UnescapeQuot(rest);
    } else {
      UnescapePlain(c, rest);
    }
  }

  lemma UnescapeAmp(rest: string)
    ensures Unescape("&amp;" + rest) == "&" + Unescape(rest)
  {
    var r := "&amp;" + rest;
    assert r[..5] == "&amp;" && r[5..] == rest;
  }

  /** Decoding one of the two four-character entities, `&lt;` or `&gt;`. */
  lemma UnescapeBracket(e: string, c: char, rest: string)
    requires (e == "&lt;" && c == '<') || (e == "&gt;" && c == '>')
    ensures Unescape(e + rest) == [c] + Unescape(rest)
  {
    var r := e + rest;
    assert r[1] == e[1];
    assert r[..4] == e && r[4..] == rest;
  }

  lemma UnescapeQuot(rest: string)
    ensures Unescape("&quot;" + rest) == "\"" + Unescape(rest)
  {
    var r := "&quot;" + rest;
    assert r[1] == 'q';
    assert r[..6] == "&quot;" && r[6..] == rest;
  }

  lemma UnescapePlain(c: char, rest: string)
    requires c != '&'
    ensures Unescape([c] + rest) == [c] + Unescape(rest)
  {
    var r := [c] + rest;
    assert r[0] == c && r[1..] == rest;
  }

  /** `Unescape` undoes `escapeHtml`, so distinct texts never escape alike. */
  lemma UnescapeEscapeHtml(s: string)
    ensures Unescape(EscapeHtml(s)) == s
  {
    UnescapeEscapeEach(s, false);
  }

  lemma EscapeHtmlInjective(a: string, b: string)
    requires EscapeHtml(a) == EscapeHtml(b)
    ensures a == b
  {
    UnescapeEscapeHtml(a);
    UnescapeEscapeHtml(b);
  }

  /** Position `k` of `r` starts one of the four entities. */
  predicate EntityAt(r: string, k: nat)
    requires k <= |r|
  {
    var t := r[k..];
    StartsWith(t, "&amp;") || StartsWith(t, "&lt;") || StartsWith(t, "&gt;") || StartsWith(t, "&quot;")
  }

  /** Text that can be placed between tags without creating markup: no '<'
      or '>', and every '&' starts an entity. */
  ghost predicate SafeText(r: string) {
    && '<' !in r && '>' !in r
    && forall k :: 0 <= k < |r| && r[k] == '&' ==> EntityAt(r, k)
  }

  lemma SafeAppend(a: string, b: string)
    requires SafeText(a) && SafeText(b)
    ensures SafeText(a + b)
  {
    var r := a + b;
    forall k | 0 <= k < |r| && r[k] == '&'
      ensures EntityAt(r, k)
    {
      if k < |a| {
        assert a[k] == '&' && EntityAt(a, k);
        assert r[k..] == a[k..] + b;
      } else {
        assert b[k - |a|] == '&' && EntityAt(b, k - |a|);
        assert r[k..] == b[k - |a|..];
      }
    }
  }

  lemma EscapeCharSafe(c: char, quotes: bool)
    ensures SafeText(EscapeChar(c, quotes))
  {
    if c == '&' {
      EntitySafe("&amp;");
    } else if c == '<' {
      EntitySafe("&lt;");
    } else if c == '>' {
      EntitySafe("&gt;");
    } else if quotes && c == '"' {
      EntitySafe("&quot;");
    }
  }

  /** An entity on its own is safe text: its only '&' starts it. */
  lemma EntitySafe(e: string)
    requires |e| > 0 && e[0] == '&' && EntityAt(e, 0)
    requires forall k :: 0 < k < |e| ==> e[k] in "amplgtquo;"
    ensures SafeText(e)
  {
  }

  lemma {:induction false} EscapeEachSafe(s: string, quotes: bool)
    ensures SafeText(EscapeEach(s, quotes))
    ensures quotes ==> '"' !in EscapeEach(s, quotes)
    decreases |s|
  {
    if |s| > 0 {
      EscapeEachSafe(s[1..], quotes);
      EscapeCharSafe(s[0], quotes);
      SafeAppend(EscapeChar(s[0], quotes), EscapeEach(s[1..], quotes));
    }
  }

  /** The output of `escapeHtml` holds no '<' or '>', and each of its '&'
      starts an entity. */
  lemma EscapeHtmlSafe(s: string)
    ensures SafeText(EscapeHtml(s))
  {
    EscapeEachSafe(s, false);
  }

  lemma {:induction false} EscapeEachKeepsQuotes(s: string)
    ensures Count('"', EscapeEach(s, false)) == Count('"', s)
    decreases |s|
  {
    if |s| > 0 {
      EscapeEachKeepsQuotes(s[1..]);
      CountAppend('"', EscapeChar(s[0], false), EscapeEach(s[1..], false));
      var e := EscapeChar(s[0], false);
      assert Count('"', e) == (if s[0] == '"' then 1 else 0) by {
        if e == [s[0]] {
          assert Count('"', e) == (if s[0] == '"' then 1 else 0) + Count('"', "");
        } else {
          CountZero('"', e);
        }
      }
    }
  }

  lemma {:induction false} EscapeEachPlain(s: string, quotes: bool)
    requires '&' !in s && '<' !in s && '>' !in s && (quotes ==> '"' !in s)
    ensures EscapeEach(s, quotes) == s
    decreases |s|
  {
    if |s| > 0 {
      EscapeEachPlain(s[1..], quotes);
      assert s == [s[0]] + s[1..];
    }
  }

  /** `escapeHtml` leaves double quotes alone (as many in the output as in the
      input) and changes nothing in text without '&', '<' or '>'. */
  lemma EscapeHtmlKeepsQuotes(s: string)
    ensures Count('"', EscapeHtml(s)) == Count('"', s)
    ensures '&' !in s && '<' !in s && '>' !in s ==> EscapeHtml(s) == s
  {
    EscapeEachKeepsQuotes(s);
    if '&' !in s && '<' !in s && '>' !in s {
      EscapeEachPlain(s, false);
    }
  }

  // ---------------------------------------------------------------------
  // Dashboard rows.

  /** A paired cell: the first member's text, a space, then "/ " and the
      second member's text when the second member has a name. */
  function Paired(first: string, second: string, hasSecond: bool): string {
    first + " " + (if hasSecond then "/ " + second else "")
  }

  /** A name cell: the escaped name, which is markup-free and decodes to
      the name. */
  function NameCell(name: string): (r: string)
    ensures SafeText(r) && Unescape(r) == name
  {
    EscapeHtmlSafe(name);
    UnescapeEscapeHtml(name);
    EscapeHtml(name)
  }

  /** A paired cell of two escaped texts: markup-free, and it decodes to the
      pairing of the two texts themselves. */
  function PairedCell(a: string, b: string, hasSecond: bool): (r: string)
    ensures SafeText(r) && Unescape(r) == Paired(a, b, hasSecond)
  {
    EscapeHtmlSafe(a);
    EscapeHtmlSafe(b);
    PairedSafe(EscapeHtml(a), EscapeHtml(b), hasSecond);
    UnescapePairedEscaped(a, b, hasSecond);
    Paired(EscapeHtml(a), EscapeHtml(b), hasSecond)
  }

  /** The nine text cells of a dashboard row, in column order. */
  datatype Row = Row(
    first: string,
    second: string,
    year: string,
    form: string,
    experience: string,
    past: string,
    email: string,
    fees: string,
    groupFee: string)

  /** No cell of the row can open or close a tag. */
  ghost predicate RowSafe(row: Row) {
    && SafeText(row.first) && SafeText(row.second) && SafeText(row.year)
    && SafeText(row.form) && SafeText(row.experience) && SafeText(row.past)
    && SafeText(row.email) && SafeText(row.fees) && SafeText(row.groupFee)
  }

  /** The text cells of a group's dashboard row: both names, then year, form,
      experience, played-before and e-mail paired, each member's fee, and the
      group fee. Whatever the stored text, no cell can open or close a tag,
      and every text cell decodes back to the stored text, the second
      member's part shown only when that member has a name. */
  function DashboardCells(g: Group): (r: Row)
    ensures RowSafe(r)
    ensures var m1, m2 := MemberAt(g.members, 0), MemberAt(g.members, 1);
      var two := m2.name != "";
      && Unescape(r.first) == m1.name
      && Unescape(r.second) == m2.name
      && Unescape(r.year) == Paired(m1.year, m2.year, two)
      && Unescape(r.form) == Paired(m1.form, m2.form, two)
      && Unescape(r.experience) == Paired(m1.experience, m2.experience, two)
      && Unescape(r.past) == Paired(m1.past, m2.past, two)
      && Unescape(r.email) == Paired(m1.email, m2.email, two)
      && r.fees == Paired(if m1.feePaid then "yes" else "no", if m2.feePaid then "yes" else "no", two)
      && r.groupFee == (if g.groupFeePaid then "yes" else "no")
  {
    var m1 := MemberAt(g.members, 0);
    var m2 := MemberAt(g.members, 1);
    var two := m2.name != "";
    FeeCellsSafe(m1.feePaid, m2.feePaid, two, g.groupFeePaid);
    Row(NameCell(m1.name),
        NameCell(m2.name),
        PairedCell(m1.year, m2.year, two),
        PairedCell(m1.form, m2.form, two),
        PairedCell(m1.experience, m2.experience, two),
        PairedCell(m1.past, m2.past, two),
        PairedCell(m1.email, m2.email, two),
        Paired(YesNo(m1.feePaid), YesNo(m2.feePaid), two),
        YesNo(g.groupFeePaid))
  }

  lemma {:induction false} EscapeEachAppend(x: string, y: string)
    ensures EscapeEach(x + y, false) == EscapeEach(x, false) + EscapeEach(y, false)
    decreases |x|
  {
    if |x| > 0 {
      assert (x + y)[1..] == x[1..] + y;
      EscapeEachAppend(x[1..], y);
    } else {
      assert x + y == y;
    }
  }

  /** The separators of a paired cell need no escaping. */
  lemma SeparatorsUnescaped()
    ensures EscapeEach(" ", false) == " " && EscapeEach("/ ", false) == "/ "
  {
    assert " "[1..] == "";
    assert "/ "[1..] == " ";
  }

  /** A paired cell of escaped texts is the escaped pairing, so it decodes
      to the pairing of the texts themselves. */
  lemma UnescapePairedEscaped(a: string, b: string, two: bool)
    ensures Unescape(Paired(EscapeHtml(a), EscapeHtml(b), two)) == Paired(a, b, two)
  {
    SeparatorsUnescaped();
    EscapeEachAppend(a, " ");
    if two {
      EscapeEachAppend("/ ", b);
      EscapeEachAppend(a + " ", "/ " + b);
      assert Paired(a, b, two) == (a + " ") + ("/ " + b);
      assert Paired(EscapeHtml(a), EscapeHtml(b), two) == EscapeEach(a + " ", false) + EscapeEach("/ " + b, false);
    } else {
      assert Paired(a, b, two) == a + " ";
      assert Paired(EscapeHtml(a), EscapeHtml(b), two) == EscapeEach(a + " ", false);
    }
    assert Paired(EscapeHtml(a), EscapeHtml(b), two) == EscapeEach(Paired(a, b, two), false);
    UnescapeEscapeEach(Paired(a, b, two), false);
  }

  /** The two fee cells hold only "yes", "no", blanks and a slash. */
  lemma FeeCellsSafe(paid1: bool, paid2: bool, two: bool, groupPaid: bool)
    ensures SafeText(Paired(YesNo(paid1), YesNo(paid2), two)) && SafeText(YesNo(groupPaid))
  {
    YesNoSafe(paid1);
    YesNoSafe(paid2);
    PairedSafe(YesNo(paid1), YesNo(paid2), two);
    YesNoSafe(groupPaid);
  }

  lemma PlainSafe(s: string)
    requires '&' !in s && '<' !in s && '>' !in s
    ensures SafeText(s)
  {
  }

  lemma PairedSafe(a: string, b: string, two: bool)
    requires SafeText(a) && SafeText(b)
    ensures SafeText(Paired(a, b, two))
  {
    PlainSafe(" ");
    PlainSafe("/ ");
    SafeAppend(a, " ");
    if two {
      SafeAppend("/ ", b);
      SafeAppend(a + " ", "/ " + b);
      assert Paired(a, b, two) == (a + " ") + ("/ " + b);
    } else {
      assert Paired(a, b, two) == a + " ";
    }
  }

  lemma YesNoSafe(b: bool)
    ensures SafeText(YesNo(b))
  {
    PlainSafe(YesNo(b));
  }

  // ---------------------------------------------------------------------
  // The search box (main.js:257): the query is put back into a
  // double-quoted attribute, `value="…"`.

  /** What an HTML parser takes as the value of a double-quoted attribute:
      the text up to the first double quote. */
  function QuotedValue(s: string): string
    decreases |s|
  {
    if |s| == 0 || s[0] == '"' then "" else [s[0]] + QuotedValue(s[1..])
  }

  lemma {:induction false} QuotedValueNoQuote(v: string, rest: string)
    requires '"' !in v
    ensures QuotedValue(v + "\"" + rest) == v
    decreases |v|
  {
    if |v| == 0 {
      assert v + "\"" + rest == "\"" + rest;
    } else {
      assert (v + "\"" + rest)[1..] == v[1..] + "\"" + rest;
      QuotedValueNoQuote(v[1..], rest);
      assert v == [v[0]] + v[1..];
    }
  }

  /** The search box as written: the query through `escapeHtml`, which leaves
      double quotes alone, so a query holding one ends the attribute early
      and the rest of the query is read as further attributes. */
  function SearchBoxAsWritten(q: string): (r: string)
    ensures |r| >= |SearchBoxPrefix| && r[..|SearchBoxPrefix|] == SearchBoxPrefix
    ensures '"' !in q ==> Unescape(QuotedValue(r[|SearchBoxPrefix|..])) == q
  {
    var v := EscapeHtml(q);
    var r := SearchBoxPrefix + v + "\" />";
    assert r[|SearchBoxPrefix|..] == v + "\"" + " />";
    if '"' in q then r
    else
      EscapeHtmlKeepsNoQuote(q);
      QuotedValueNoQuote(v, " />");
      UnescapeEscapeHtml(q);
      r
  }

  /** The search input of the dashboard header up to the opening quote of
      its `value` attribute. */
  const SearchBoxPrefix: string := "<input name=\"q\" placeholder=\"search name/form/year/email\" value=\""

  lemma EscapeHtmlKeepsNoQuote(q: string)
    requires '"' !in q
    ensures '"' !in EscapeHtml(q)
  {
    EscapeHtmlKeepsQuotes(q);
    CountZero('"', q);
    CountZero('"', EscapeHtml(q));
  }

  /** Any query that starts with a double quote, such as
      `" autofocus onfocus="alert(1)`, comes back from the attribute as the
      empty string: the attribute closes at once and the rest of the query
      is read as markup. */
  lemma SearchBoxAsWrittenBreaksOut(q: string)
    requires |q| > 0 && q[0] == '"'
    ensures var box := SearchBoxAsWritten(q);
      && |box| >= |SearchBoxPrefix|
      && box[..|SearchBoxPrefix|] == SearchBoxPrefix
      && QuotedValue(box[|SearchBoxPrefix|..]) == ""
      && Unescape(QuotedValue(box[|SearchBoxPrefix|..])) != q
  {
    var e := EscapeHtml(q);
    assert e == "\"" + EscapeEach(q[1..], false);
    var box := SearchBoxAsWritten(q);
    assert box == SearchBoxPrefix + (e + "\" />");
    var after := box[|SearchBoxPrefix|..];
    assert after == e + "\" />";
    assert after[0] == '"';
    assert Unescape("") == "";
  }

  /** The attribute-safe escaper: `escapeHtml` followed by replacing double
      quotes with `&quot;`. */
  function EscapeAttribute(s: string): (r: string)
    ensures '"' !in r && SafeText(r)
    ensures Unescape(r) == s
  {
    var r := ReplaceAll(EscapeHtml(s), '"', "&quot;");
    EscapeAttributeIsPerChar(s);
    EscapeEachSafe(s, true);
    UnescapeEscapeEach(s, true);
    r
  }

  lemma {:induction false} EscapeAttributeIsPerChar(s: string)
    ensures ReplaceAll(EscapeHtml(s), '"', "&quot;") == EscapeEach(s, true)
    decreases |s|
  {
    QuotePassIsPerChar(s);
  }

  lemma {:induction false} QuotePassIsPerChar(s: string)
    ensures ReplaceAll(EscapeEach(s, false), '"', "&quot;") == EscapeEach(s, true)
    decreases |s|
  {
    if |s| > 0 {
      var c := s[0];
      QuotePassIsPerChar(s[1..]);
      ReplaceAllAppend(EscapeChar(c, false), EscapeEach(s[1..], false), '"', "&quot;");
      QuotePassOnChar(c);
    }
  }

  /** The quote pass on one escaped character gives its attribute-safe
      escape. */
  lemma QuotePassOnChar(c: char)
    ensures ReplaceAll(EscapeChar(c, false), '"', "&quot;") == EscapeChar(c, true)
  {
    if EscapeChar(c, false) == [c] {
      ReplaceAllSingle(c, '"', "&quot;");
    } else {
      ReplaceAllAbsent(EscapeChar(c, false), '"', "&quot;");
    }
  }

  /** The corrected search box: the attribute value read back is exactly the
      escaped query, which decodes to the query. */
  function SearchBox(q: string): (r: string)
    ensures |r| >= |SearchBoxPrefix| && r[..|SearchBoxPrefix|] == SearchBoxPrefix
    ensures Unescape(QuotedValue(r[|SearchBoxPrefix|..])) == q
  {
    var v := EscapeAttribute(q);
    var r := SearchBoxPrefix + v + "\" />";
    assert r[|SearchBoxPrefix|..] == v + "\"" + " />";
    QuotedValueNoQuote(v, " />");
    r
  }
}

=== FILE: records.dfy ===
/** The entities of the tournament sign-up server: the submitted payload as
    it arrives in the request body, the stored member and group records, and
    the store of groups that stands in for the document database. */
module Records {

  datatype Option<+T> = None | Some(value: T)

  /** Outcome of a validation: the built value, or the message shown to the
      client. */
  datatype Result<+T> = Ok(value: T) | Err(message: string)

  /** JavaScript truthiness of an optional string: present and non-empty. */
  predicate Truthy(o: Option<string>) {
    o.Some? && o.value != ""
  }

  /** The JavaScript idiom `x || fallback` on an optional string. */
  function OrElse(o: Option<string>, fallback: string): (r: string)
    ensures Truthy(o) ==> r == o.value
    ensures !Truthy(o) ==> r == fallback
  {
    if Truthy(o) then o.value else fallback
  }

  /** One player's sub-record of the submitted form; every field may be
      missing from the request body. */
  datatype PlayerForm = PlayerForm(
    name: Option<string>,
    form: Option<string>,
    year: Option<string>,
    experience: Option<string>,
    past: Option<string>,
    reason: Option<string>,
    fee: Option<string>,
    email: Option<string>)

  /** The body of a submission: the group flag and the two player records. */
  datatype Payload = Payload(group: Option<string>, p1: Option<PlayerForm>, p2: Option<PlayerForm>)

  /** A stored member of a group. */
  datatype Member = Member(
    name: string,
    form: string,
    year: string,
    experience: string,
    past: string,
    reason: string,
    feePaid: bool,
    email: string)

  /** The member at position `k` of a group, or the empty object `{}` the
      dashboard and the export fall back to when there is none: every text
      field reads as empty and the fee flag as unpaid. */
  function MemberAt(ms: seq<Member>, k: nat): (m: Member)
    ensures k < |ms| ==> m == ms[k]
    ensures k >= |ms| ==> m.name == m.form == m.year == m.experience == m.past == m.email == "" && !m.feePaid
  {
    if k < |ms| then ms[k] else Member("", "", "", "", "", "", false, "")
  }

  /** A validated entry before it is saved: the store adds the id and the
      creation time. */
  datatype Entry = Entry(members: seq<Member>, groupFeePaid: bool)

  type GroupId = nat

  /** Creation time, opaque apart from its order. */
  type Timestamp = nat

  /** A stored group document. */
  datatype Group = Group(id: GroupId, members: seq<Member>, groupFeePaid: bool, createdAt: Timestamp)

  /** The document store: the saved groups in insertion order and the id the
      next saved group receives. */
  datatype Store = Store(groups: seq<Group>, nextId: GroupId)

  ghost predicate UniqueIds(gs: seq<Group>) {
    forall i, j :: 0 <= i < j < |gs| ==> gs[i].id != gs[j].id
  }

  /** Ids are unique and all below `nextId`, so the next id is fresh. */
  ghost predicate ValidStore(st: Store) {
    && (forall i :: 0 <= i < |st.groups| ==> st.groups[i].id < st.nextId)
    && UniqueIds(st.groups)
  }

  predicate HasId(gs: seq<Group>, id: GroupId) {
    exists i :: 0 <= i < |gs| && gs[i].id == id
  }
}

=== FILE: roster.dfy ===
/** The staff roster operations over the stored groups (main.js:98-121):
    newest-first ordering, the literal case-insensitive search with its
    regular-expression escaping, and delete-by-id. */
module Roster {
  import opened Text
  import opened Records

  // ---------------------------------------------------------------------
  // Newest first: `.sort({createdAt: -1})`.

  ghost predicate NewestFirst(gs: seq<Group>) {
    forall i, j :: 0 <= i < j < |gs| ==> gs[i].createdAt >= gs[j].createdAt
  }

  /** Inserts `g` before the first group that is not newer than it. */
  function Insert(g: Group, gs: seq<Group>): (r: seq<Group>)
    requires NewestFirst(gs)
    ensures NewestFirst(r)
    ensures multiset(r) == multiset(gs) + multiset{g}
    decreases |gs|
  {
    if |gs| == 0 || g.createdAt >= gs[0].createdAt then [g] + gs
    else
      var rest := Insert(g, gs[1..]);
      InsertStep(g, gs, rest);
      [gs[0]] + rest
  }

  /** The step of `Insert` that puts the newest group in front of the
      insertion into the others. */
  lemma InsertStep(g: Group, gs: seq<Group>, rest: seq<Group>)
    requires NewestFirst(gs) && |gs| > 0 && g.createdAt < gs[0].createdAt
    requires NewestFirst(rest) && multiset(rest) == multiset(gs[1..]) + multiset{g}
    ensures NewestFirst([gs[0]] + rest)
    ensures multiset([gs[0]] + rest) == multiset(gs) + multiset{g}
  {
    var t := gs[0].createdAt;
    TailAtMost(gs);
    AppendAtMost(t, gs[1..], g);
    AtMostPerm(t, gs[1..] + [g], rest);
    ConsNewestFirst(gs[0], rest);
    ConsPerm(gs, g, rest);
  }

  lemma ConsPerm(gs: seq<Group>, g: Group, rest: seq<Group>)
    requires |gs| > 0 && multiset(rest) == multiset(gs[1..]) + multiset{g}
    ensures multiset([gs[0]] + rest) == multiset(gs) + multiset{g}
  {
    assert gs == [gs[0]] + gs[1..];
  }

  lemma TailAtMost(gs: seq<Group>)
    requires NewestFirst(gs) && |gs| > 0
    ensures AllAtMost(gs[0].createdAt, gs[1..])
  {
    assert forall k :: 0 <= k < |gs| - 1 ==> gs[1..][k] == gs[k + 1];
  }

  lemma AppendAtMost(t: Timestamp, a: seq<Group>, g: Group)
    requires AllAtMost(t, a) && g.createdAt <= t
    ensures AllAtMost(t, a + [g])
  {
    assert forall k :: 0 <= k < |a| ==> (a + [g])[k] == a[k];
  }

  ghost predicate AllAtMost(t: Timestamp, gs: seq<Group>) {
    forall k :: 0 <= k < |gs| ==> gs[k].createdAt <= t
  }

  /** A bound on creation times holds for every permutation. */
  lemma AtMostPerm(t: Timestamp, a: seq<Group>, b: seq<Group>)
    requires multiset(a) == multiset(b) && AllAtMost(t, a)
    ensures AllAtMost(t, b)
  {
    forall k | 0 <= k < |b|
      ensures b[k].createdAt <= t
    {
      assert b[k] in multiset(a);
      var j :| 0 <= j < |a| && a[j] == b[k];
    }
  }

  lemma ConsNewestFirst(g: Group, gs: seq<Group>)
    requires NewestFirst(gs) && AllAtMost(g.createdAt, gs)
    ensures NewestFirst([g] + gs)
  {
    var r := [g] + gs;
    forall i, j | 0 <= i < j < |r|
      ensures r[i].createdAt >= r[j].createdAt
    {
      assert r[j] == gs[j - 1];
      if i > 0 {
        assert r[i] == gs[i - 1];
      }
    }
  }

  /** The groups newest first; among equal creation times the stored order
      is kept. */
  function SortNewestFirst(gs: seq<Group>): (r: seq<Group>)
    ensures NewestFirst(r)
    ensures multiset(r) == multiset(gs)
    decreases |gs|
  {
    if |gs| == 0 then []
    else
      assert gs == [gs[0]] + gs[1..];
      Insert(gs[0], SortNewestFirst(gs[1..]))
  }

  // ---------------------------------------------------------------------
  // Search.

  /** The characters the source escapes with a backslash before building the
      regular expression: . * + ? ^ $ { } ( ) | [ ] and the backslash. */
  predicate IsRegexSpecial(c: char) {
    c in ".*+?^${}()|[]\\"
  }

  /** Reads a pattern as a run of literal atoms: a backslash followed by a
      special character stands for that character, any other character that
      is not special stands for itself. `None` when the pattern holds an
      operator or a backslash escape that is not an identity escape. */
  function LiteralText(p: string): Option<string>
    decreases |p|
  {
    if |p| == 0 then Some("")
    else if p[0] == '\\' then
      if |p| >= 2 && IsRegexSpecial(p[1]) then
        match LiteralText(p[2..])
        case None => None
        case Some(t) => Some([p[1]] + t)
      else None
    else if IsRegexSpecial(p[0]) then None
    else
      match LiteralText(p[1..])
      case None => None
      case Some(t) => Some([p[0]] + t)
  }

  /** `q.replace(/[.*+?^${}()|[\]\\]/g, '\\$&')`: the escaped query is a
      pattern of literal atoms only, spelling the query itself, so no
      character of the query acts as an operator. */
  function EscapeRegex(q: string): (r: string)
    ensures LiteralText(r) == Some(q)
    decreases |q|
  {
    if |q| == 0 then ""
    else
      var rest := EscapeRegex(q[1..]);
      assert q == [q[0]] + q[1..];
      if IsRegexSpecial(q[0]) then
        var p := ['\\', q[0]] + rest;
        assert p[2..] == rest;
        p
      else
        var p := [q[0]] + rest;
        assert p[1..] == rest;
        p
  }

  /** A literal pattern with the case-insensitive flag matches a field when
      the query occurs in it, letters compared without case. */
  predicate MatchesText(field: string, q: string) {
    Contains(Lower(field), Lower(q))
  }

  /** The fields the search looks at: name, form, year and e-mail. */
  function SearchedFields(m: Member): seq<string> {
    [m.name, m.form, m.year, m.email]
  }

  /** Some searched field of some member matches. */
  ghost predicate SomeFieldMatches(ms: seq<Member>, q: string) {
    exists i, j :: 0 <= i < |ms| && 0 <= j < 4 && MatchesText(SearchedFields(ms[i])[j], q)
  }

  predicate MemberMatches(m: Member, q: string) {
    MatchesText(m.name, q) || MatchesText(m.form, q) || MatchesText(m.year, q) || MatchesText(m.email, q)
  }

  /** Scans the members in order for one with a matching field. */
  function AnyMemberMatches(ms: seq<Member>, q: string): (b: bool)
    ensures b <==> SomeFieldMatches(ms, q)
    decreases |ms|
  {
    if |ms| == 0 then false
    else
      var rest := AnyMemberMatches(ms[1..], q);
      var here := MemberMatches(ms[0], q);
      if here then
        HeadMemberMatches(ms, q);
        true
      else
        MemberTailMatches(ms, q);
        rest
  }

  lemma HeadMemberMatches(ms: seq<Member>, q: string)
    requires |ms| > 0 && MemberMatches(ms[0], q)
    ensures SomeFieldMatches(ms, q)
  {
    var m := ms[0];
    var f := SearchedFields(m);
    var j := if MatchesText(m.name, q) then 0
             else if MatchesText(m.form, q) then 1
             else if MatchesText(m.year, q) then 2
             else 3;
    assert MatchesText(f[j], q);
  }

  lemma MemberTailMatches(ms: seq<Member>, q: string)
    requires |ms| > 0 && !MemberMatches(ms[0], q)
    ensures SomeFieldMatches(ms, q) <==> SomeFieldMatches(ms[1..], q)
  {
    if SomeFieldMatches(ms, q) {
      var i, j :| 0 <= i < |ms| && 0 <= j < 4 && MatchesText(SearchedFields(ms[i])[j], q);
      assert i > 0 && ms[1..][i - 1] == ms[i];
    }
    if SomeFieldMatches(ms[1..], q) {
      var i, j :| 0 <= i < |ms| - 1 && 0 <= j < 4 && MatchesText(SearchedFields(ms[1..][i])[j], q);
      assert ms[i + 1] == ms[1..][i];
    }
  }

  /** The `$or` filter over `members.name`, `members.form`, `members.year`
      and `members.email`, each matched element-wise over the members array:
      a group matches exactly when some member has some searched field
      matching. */
  function MatchesGroup(g: Group, q: string): (b: bool)
    ensures b <==> SomeFieldMatches(g.members, q)
  {
    AnyMemberMatches(g.members, q)
  }

  /** The groups the filter keeps, in stored order. */
  function FilterGroups(gs: seq<Group>, q: string): (r: seq<Group>)
    ensures forall g :: multiset(r)[g] == if MatchesGroup(g, q) then multiset(gs)[g] else 0
    decreases |gs|
  {
    if |gs| == 0 then []
    else
      assert gs == [gs[0]] + gs[1..];
      var rest := FilterGroups(gs[1..], q);
      if MatchesGroup(gs[0], q) then [gs[0]] + rest else rest
  }

  /** The dashboard listing: the trimmed query selects the matching groups
      (all of them when it is empty), newest first. */
  function ListGroups(gs: seq<Group>, rawQuery: Option<string>): (r: seq<Group>)
    ensures NewestFirst(r)
    ensures var q := Trim(OrElse(rawQuery, ""));
      forall g :: multiset(r)[g] == if q == "" || MatchesGroup(g, q) then multiset(gs)[g] else 0
  {
    var q := Trim(OrElse(rawQuery, ""));
    if q == "" then SortNewestFirst(gs) else SortNewestFirst(FilterGroups(gs, q))
  }

  /** A member named "Alice Smith" is found by "smith", "SMITH" and "ali". */
  lemma SearchExample(g: Group)
    requires |g.members| > 0 && g.members[0].name == "Alice Smith"
    ensures MatchesGroup(g, "smith") && MatchesGroup(g, "SMITH") && MatchesGroup(g, "ali")
  {
    var low := Lower("Alice Smith");
    assert low == "alice smith";
    assert Lower("smith") == "smith";
    assert Lower("SMITH") == "smith";
    assert Lower("ali") == "ali";
    assert OccursAt("smith", low, 6);
    ContainsIffOccurs(low, "smith");
    assert OccursAt("ali", low, 0);
    ContainsIffOccurs(low, "ali");
    assert MatchesText(SearchedFields(g.members[0])[0], "smith");
    assert MatchesText(SearchedFields(g.members[0])[0], "SMITH");
    assert MatchesText(SearchedFields(g.members[0])[0], "ali");
  }

  // ---------------------------------------------------------------------
  // Delete: `Group.deleteOne({_id: id})`.

  /** Removes the first group with the id; without one the groups are
      returned unchanged. */
  function DeleteOne(gs: seq<Group>, id: GroupId): (r: seq<Group>)
    ensures !HasId(gs, id) ==> r == gs
    ensures HasId(gs, id) ==> |r| == |gs| - 1
    ensures forall g :: g in r ==> g in gs
    ensures forall g :: g in gs && g.id != id ==> g in r
    decreases |gs|
  {
    if |gs| == 0 then []
    else if gs[0].id == id then gs[1..]
    else
      var rest := DeleteOne(gs[1..], id);
      assert HasId(gs, id) ==> HasId(gs[1..], id) by {
        if HasId(gs, id) {
          var i :| 0 <= i < |gs| && gs[i].id == id;
          assert gs[1..][i - 1].id == id;
        }
      }
      assert HasId(gs[1..], id) ==> HasId(gs, id) by {
        if HasId(gs[1..], id) {
          var i :| 0 <= i < |gs| - 1 && gs[1..][i].id == id;
          assert gs[i + 1].id == id;
        }
      }
      assert gs == [gs[0]] + gs[1..];
      [gs[0]] + rest
  }

  lemma UniqueTail(gs: seq<Group>)
    requires |gs| > 0 && UniqueIds(gs)
    ensures UniqueIds(gs[1..])
    ensures forall i :: 0 <= i < |gs| - 1 ==> gs[1..][i].id != gs[0].id
  {
    assert forall i :: 0 <= i < |gs| - 1 ==> gs[1..][i] == gs[i + 1];
  }

  /** With unique ids, the deleted id is gone and the remaining groups keep
      unique ids. */
  lemma {:induction false} DeleteOneUnique(gs: seq<Group>, id: GroupId)
    requires UniqueIds(gs)
    ensures !HasId(DeleteOne(gs, id), id)
    ensures UniqueIds(DeleteOne(gs, id))
    decreases |gs|
  {
    if |gs| > 0 {
      UniqueTail(gs);
      if gs[0].id != id {
        DeleteOneUnique(gs[1..], id);
        DeleteOneConsUnique(gs[0], DeleteOne(gs[1..], id), gs[1..], id);
      }
    }
  }

  /** Putting back a group whose id differs from `id` and from every id of
      the tail it came from. */
  lemma DeleteOneConsUnique(g: Group, rest: seq<Group>, tail: seq<Group>, id: GroupId)
    requires g.id != id
    requires forall x :: x in rest ==> x in tail
    requires forall i :: 0 <= i < |tail| ==> tail[i].id != g.id
    requires !HasId(rest, id) && UniqueIds(rest)
    ensures !HasId([g] + rest, id) && UniqueIds([g] + rest)
  {
    var r := [g] + rest;
    forall i, j | 0 <= i < j < |r|
      ensures r[i].id != r[j].id
    {
      assert r[j] == rest[j - 1];
      if i == 0 {
        assert rest[j - 1] in tail;
      } else {
        assert r[i] == rest[i - 1];
      }
    }
    forall i | 0 <= i < |r|
      ensures r[i].id != id
    {
      if i > 0 {
        assert r[i] == rest[i - 1];
      }
    }
  }

  /** Deleting from the store: only a group with the id can go, every group
      with another id stays, and the id counter is untouched. */
  function DeleteGroup(st: Store, id: GroupId): (r: Store)
    ensures r.nextId == st.nextId
    ensures forall g :: g in r.groups ==> g in st.groups
    ensures forall g :: g in st.groups && g.id != id ==> g in r.groups
    ensures !HasId(st.groups, id) ==> r == st
    ensures HasId(st.groups, id) ==> |r.groups| == |st.groups| - 1
  {
    Store(DeleteOne(st.groups, id), st.nextId)
  }

  /** Deleting keeps the store valid, removes the id, and deleting again
      changes nothing. */
  lemma DeleteGroupValid(st: Store, id: GroupId)
    requires ValidStore(st)
    ensures ValidStore(DeleteGroup(st, id))
    ensures !HasId(DeleteGroup(st, id).groups, id)
    ensures DeleteGroup(DeleteGroup(st, id), id) == DeleteGroup(st, id)
  {
    DeleteOneUnique(st.groups, id);
    var r := DeleteGroup(st, id);
    forall i | 0 <= i < |r.groups|
      ensures r.groups[i].id < r.nextId
    {
      assert r.groups[i] in st.groups;
    }
  }
}

=== FILE: routes.dfy ===
/** The request handlers of the server (main.js:43-133) over one client's
    session and the store: the public form and submission, the staff login
    and logout, and the three staff-only routes, each of which checks the
    session flag before anything else. */
module Routes {
  import opened Text
  import opened Records
  import Submission
  import Roster
  import Csv
  import Html

  datatype Session = Session(authenticated: bool)

  /** The state a request sees: the client's session and the shared store. */
  datatype Server = Server(session: Session, store: Store)

  datatype Request =
    | ShowForm
    | SubmitEntry(payload: Payload, now: Timestamp)
    | ShowLogin
    | Login(password: Option<string>)
    | Logout
    | Delete(path: string)
    | Dashboard(query: Option<string>)
    | Export

  /** What a handler sends back, in place of the HTTP status, headers and
      rendered page. */
  datatype Reply =
    | EntryFormPage
    | Created(id: GroupId)
    | BadRequest(message: string)
    | LoginPage(error: string)
    | Redirect(location: string)
    | Unauthorized
    | DashboardPage(groups: seq<Group>, query: string)
    | CsvAttachment(body: string)

  const LoginPath: string := "/teacher"
  const DashboardPath: string := "/teacher/dashboard"
  const WrongPassword: string := "Incorrect password"
  const DefaultPassword: string := "Arkvic"

  /** `process.env.TEACHER_PASS || 'Arkvic'`: the staff password in force. */
  function ConfiguredPassword(env: Option<string>): (r: string)
    ensures r != ""
    ensures Truthy(env) ==> r == env.value
  {
    OrElse(env, DefaultPassword)
  }

  /** What the handlers take from the environment: the password in force,
      the rendering of creation times (`toISOString`), and the document
      store's cast of the `:id` path text to a group id, `None` for text it
      rejects with a cast error. */
  datatype Config = Config(secret: string, iso: Timestamp -> string, cast: string -> Option<GroupId>)

  /** The outcome of an asynchronous handler: a reply, or a rejected promise
      that nothing catches. Express 4 does not catch a rejection of an
      `async` handler, no reply is sent, and Node then ends the process. */
  datatype Outcome = Answered(state: Server, reply: Reply) | ProcessExits

  predicate IsStaffRoute(req: Request) {
    req.Delete? || req.Dashboard? || req.Export?
  }

  /** `POST /submit`: 200 with the new id, or 400 with the first failed
      rule's message and no write. */
  function SubmitRoute(sv: Server, p: Payload, now: Timestamp): (r: (Server, Reply))
    ensures r.0.session == sv.session
    ensures r.1.Created? || r.1.BadRequest?
    ensures r.1.BadRequest? <==> Submission.Validate(p).Err?
    ensures r.1.BadRequest? ==> r.0 == sv && r.1.message == Submission.Validate(p).message
    ensures r.1.Created? ==> r.1.id == sv.store.nextId && |r.0.store.groups| == |sv.store.groups| + 1
    ensures r.1.Created? ==>
      r.0.store == Store(sv.store.groups + [Group(sv.store.nextId, Submission.Validate(p).value.members, true, now)],
                         sv.store.nextId + 1)
  {
    var (st, res) := Submission.Submit(sv.store, p, now);
    match res
    case Ok(id) => (Server(sv.session, st), Created(id))
    case Err(msg) => (Server(sv.session, st), BadRequest(msg))
  }

  /** `POST /teacher/login`: the session becomes authenticated exactly when
      the password in force is non-empty and equals the one given; otherwise
      the session is left as it was and the form shows an error. */
  function LoginRoute(sv: Server, secret: string, password: Option<string>): (r: (Server, Reply))
    ensures r.0.store == sv.store
    ensures var ok := secret != "" && OrElse(password, "") == secret;
      && (ok ==> r.0.session.authenticated && r.1 == Redirect(DashboardPath))
      && (!ok ==> r.0 == sv && r.1 == LoginPage(WrongPassword))
  {
    var pw := OrElse(password, "");
    if secret != "" && pw == secret then (Server(Session(true), sv.store), Redirect(DashboardPath))
    else (sv, LoginPage(WrongPassword))
  }

  /** `GET /teacher/logout`: the session is destroyed whatever its state. */
  function LogoutRoute(sv: Server): (r: (Server, Reply))
    ensures !r.0.session.authenticated && r.0.store == sv.store
    ensures r.1 == Redirect(LoginPath)
  {
    (Server(Session(false), sv.store), Redirect(LoginPath))
  }

  /** `POST /teacher/delete/:id` once the path text is a group id: 401
      without a session; otherwise the group with the id is removed, if
      there is one, and the dashboard follows. */
  function DeleteRoute(sv: Server, id: GroupId): (r: (Server, Reply))
    ensures r.0.session == sv.session
    ensures !sv.session.authenticated ==> r == (sv, Unauthorized)
    ensures sv.session.authenticated ==>
      && r.1 == Redirect(DashboardPath)
      && r.0.store == Roster.DeleteGroup(sv.store, id)
  {
    if !sv.session.authenticated then (sv, Unauthorized)
    else (Server(sv.session, Roster.DeleteGroup(sv.store, id)), Redirect(DashboardPath))
  }

  /** `GET /teacher/dashboard`: back to the login page without a session;
      otherwise the matching groups, newest first, with the trimmed query. */
  function DashboardRoute(sv: Server, query: Option<string>): (r: Reply)
    ensures !sv.session.authenticated ==> r == Redirect(LoginPath)
    ensures sv.session.authenticated ==>
      && r.DashboardPage?
      && r.query == Trim(OrElse(query, ""))
      && Roster.NewestFirst(r.groups)
      && forall g :: multiset(r.groups)[g] ==
           if r.query == "" || Roster.MatchesGroup(g, r.query) then multiset(sv.store.groups)[g] else 0
  {
    if !sv.session.authenticated then Redirect(LoginPath)
    else DashboardPage(Roster.ListGroups(sv.store.groups, query), Trim(OrElse(query, "")))
  }

  /** `GET /teacher/export.csv`: 401 without a session; otherwise every
      stored group, newest first, ignoring any search. */
  function ExportRoute(sv: Server, iso: Timestamp -> string): (r: Reply)
    ensures !sv.session.authenticated ==> r == Unauthorized
    ensures sv.session.authenticated ==> r.CsvAttachment?
    ensures sv.session.authenticated ==>
      var rows := Csv.ParseDocument(r.body);
      && rows.Some? && |rows.value| == |sv.store.groups| + 1
      && rows.value[0] == Csv.HeaderFields
      && rows.value == Csv.ExportRecords(Roster.SortNewestFirst(sv.store.groups), iso)
  {
    if !sv.session.authenticated then Unauthorized
    else
      var sorted := Roster.SortNewestFirst(sv.store.groups);
      assert |sorted| == |multiset(sorted)| == |sv.store.groups|;
      CsvAttachment(Csv.ExportBody(sorted, iso))
  }

  /** `POST /teacher/delete/:id` as written: the `deleteOne` call is awaited
      outside any `try`, so path text that the cast rejects (`abc`, say)
      rejects the handler's promise, no reply is sent, and the process
      ends. */
  function DeleteByPathAsWritten(sv: Server, cast: string -> Option<GroupId>, path: string): (r: Outcome)
    ensures !sv.session.authenticated ==> r == Answered(sv, Unauthorized)
    ensures sv.session.authenticated && cast(path).None? ==> r.ProcessExits?
    ensures sv.session.authenticated && cast(path).Some? ==>
      r == Answered(Server(sv.session, Roster.DeleteGroup(sv.store, cast(path).value)), Redirect(DashboardPath))
  {
    if !sv.session.authenticated then Answered(sv, Unauthorized)
    else match cast(path)
      case None => ProcessExits
      case Some(id) => var (sv', reply) := DeleteRoute(sv, id); Answered(sv', reply)
  }

  /** The handler as written ends the whole process on the path
      `/teacher/delete/abc` for a logged-in client, whenever the cast rejects
      `abc`, as the document store's cast of a group id does. */
  lemma DeleteMalformedIdEndsProcess(sv: Server, cast: string -> Option<GroupId>)
    requires sv.session.authenticated && cast("abc").None?
    ensures DeleteByPathAsWritten(sv, cast, "abc") == ProcessExits
    ensures DeleteByPathAsWritten(sv, cast, "abc") != DeleteByPath(sv, cast, "abc")
  {
  }

  /** `POST /teacher/delete/:id` with the cast failure caught in the handler:
      path text the cast rejects names no stored group, so it is answered
      like the delete of an absent id, with the dashboard redirect and
      nothing changed; every other path behaves as written. */
  function DeleteByPath(sv: Server, cast: string -> Option<GroupId>, path: string): (r: Outcome)
    ensures r.Answered? && r.state.session == sv.session
    ensures cast(path).None? && sv.session.authenticated ==> r == Answered(sv, Redirect(DashboardPath))
    ensures !(cast(path).None? && sv.session.authenticated) ==> r == DeleteByPathAsWritten(sv, cast, path)
  {
    if !sv.session.authenticated then Answered(sv, Unauthorized)
    else match cast(path)
      case None => Answered(sv, Redirect(DashboardPath))
      case Some(id) => var (sv', reply) := DeleteRoute(sv, id); Answered(sv', reply)
  }

  /** For a logged-in client, a delete whose path text the cast rejects and a
      delete of an id that is not stored are the same no-op: the state is
      unchanged and the client is sent to the dashboard. */
  lemma DeleteByPathNoOp(sv: Server, cast: string -> Option<GroupId>, path: string)
    requires sv.session.authenticated
    requires cast(path).None? || !HasId(sv.store.groups, cast(path).value)
    ensures DeleteByPath(sv, cast, path) == Answered(sv, Redirect(DashboardPath))
  {
  }

  /** Dispatches a request to its handler, the delete to the corrected
      `DeleteByPath`. Only a submission and a delete
      write to the store, and only the login and logout change the session. */
  function Handle(sv: Server, cfg: Config, req: Request): (r: (Server, Reply))
    ensures !req.SubmitEntry? && !req.Delete? ==> r.0.store == sv.store
    ensures !req.Login? && !req.Logout? ==> r.0.session == sv.session
  {
    match req
    case ShowForm => (sv, EntryFormPage)
    case SubmitEntry(p, now) => SubmitRoute(sv, p, now)
    case ShowLogin =>
      if sv.session.authenticated then (sv, Redirect(DashboardPath)) else (sv, LoginPage(""))
    case Login(pw) => LoginRoute(sv, cfg.secret, pw)
    case Logout => LogoutRoute(sv)
    case Delete(path) =>
      var o := DeleteByPath(sv, cfg.cast, path);
      (o.state, o.reply)
    case Dashboard(q) => (sv, DashboardRoute(sv, q))
    case Export => (sv, ExportRoute(sv, cfg.iso))
  }

  /** Every staff route refuses a session that has not logged in: nothing
      changes, and the reply is 401 or a redirect to the login page. */
  lemma StaffRoutesNeedLogin(sv: Server, cfg: Config, req: Request)
    requires IsStaffRoute(req) && !sv.session.authenticated
    ensures Handle(sv, cfg, req).0 == sv
    ensures Handle(sv, cfg, req).1 in {Unauthorized, Redirect(LoginPath)}
  {
  }

  /** After a successful login every staff route is served: none of them
      answers 401 or sends the client back to the login page. */
  lemma LoginOpensStaffRoutes(sv: Server, cfg: Config, req: Request)
    requires cfg.secret != "" && IsStaffRoute(req)
    ensures var sv' := Handle(sv, cfg, Login(Some(cfg.secret))).0;
      var reply := Handle(sv', cfg, req).1;
      reply.DashboardPage? || reply.CsvAttachment? || reply == Redirect(DashboardPath)
  {
  }

  /** After a logout every staff route is refused again. */
  lemma LogoutClosesStaffRoutes(sv: Server, cfg: Config, req: Request)
    requires IsStaffRoute(req)
    ensures var sv' := Handle(sv, cfg, Logout).0;
      Handle(sv', cfg, req).1 in {Unauthorized, Redirect(LoginPath)}
  {
    StaffRoutesNeedLogin(Handle(sv, cfg, Logout).0, cfg, req);
  }

  /** With the password in force, a missing or empty password never logs in,
      so the non-empty guard on the password is never what refuses a login. */
  lemma EmptyPasswordNeverLogsIn(sv: Server, env: Option<string>, password: Option<string>)
    requires !Truthy(password) && !sv.session.authenticated
    ensures !LoginRoute(sv, ConfiguredPassword(env), password).0.session.authenticated
  {
  }

  /** Deleting an id that is not stored changes nothing and answers with the
      same redirect as deleting a stored one. */
  lemma DeleteAbsentIsNoOp(sv: Server, id: GroupId, other: GroupId)
    requires sv.session.authenticated && !HasId(sv.store.groups, id)
    ensures DeleteRoute(sv, id).0 == sv
    ensures DeleteRoute(sv, id).1 == DeleteRoute(sv, other).1
  {
  }

  /** Every handler keeps the store's ids unique and fresh. */
  lemma HandleKeepsStoreValid(sv: Server, cfg: Config, req: Request)
    requires ValidStore(sv.store)
    ensures ValidStore(Handle(sv, cfg, req).0.store)
  {
    match req
    case SubmitEntry(p, now) => Submission.SubmitKeepsStoreValid(sv.store, p, now);
    case Delete(path) => DeleteByPathKeepsStoreValid(sv, cfg.cast, path);
    case _ =>
  }

  lemma DeleteByPathKeepsStoreValid(sv: Server, cast: string -> Option<GroupId>, path: string)
    requires ValidStore(sv.store)
    ensures ValidStore(DeleteByPath(sv, cast, path).state.store)
  {
    if sv.session.authenticated && cast(path).Some? {
      Roster.DeleteGroupValid(sv.store, cast(path).value);
    }
  }

  /** A successful submission shows up on an unfiltered dashboard, with both
      members as built from the payload; its row cannot inject markup, its
      name cells decode back to the submitted names, and every other text
      cell decodes to both members' stored text. */
  lemma SubmittedGroupListed(sv: Server, p: Payload, now: Timestamp)
    requires sv.session.authenticated && Submission.Validate(p).Ok?
    ensures var sv' := SubmitRoute(sv, p, now).0;
      var page := DashboardRoute(sv', None);
      var ms := Submission.Validate(p).value.members;
      var g := Group(sv.store.nextId, ms, true, now);
      var row := Html.DashboardCells(g);
      && page.DashboardPage?
      && g in page.groups
      && Html.RowSafe(row)
      && Html.Unescape(row.first) == p.p1.value.name.value
      && Html.Unescape(row.second) == p.p2.value.name.value
      && Html.Unescape(row.year) == Html.Paired(ms[0].year, ms[1].year, true)
      && Html.Unescape(row.form) == Html.Paired(ms[0].form, ms[1].form, true)
      && Html.Unescape(row.experience) == Html.Paired(ms[0].experience, ms[1].experience, true)
      && Html.Unescape(row.past) == Html.Paired(ms[0].past, ms[1].past, true)
      && Html.Unescape(row.email) == Html.Paired(ms[0].email, ms[1].email, true)
  {
    var sv' := SubmitRoute(sv, p, now).0;
    var ms := Submission.Validate(p).value.members;
    var g := Group(sv.store.nextId, ms, true, now);
    assert sv'.store.groups == sv.store.groups + [g];
    assert Trim(OrElse(None, "")) == "";
    var page := DashboardRoute(sv', None);
    assert multiset(sv'.store.groups)[g] > 0;
    assert multiset(page.groups)[g] > 0;
    assert MemberAt(ms, 0) == ms[0] && MemberAt(ms, 1) == ms[1];
    assert ms[1].name != "";
  }
}

=== FILE: submission.dfy ===
/** The `POST /submit` handler (main.js:45-80): the ordered validation chain,
    e-mail normalisation, the construction of the two members, and the single
    write to the store on success. */
module Submission {
  import opened Text
  import opened Records

  /** The institutional mail domain appended to every local part. */
  const Domain: string := "@arkvictoria.org"

  const MissingPlayer1: string := "Missing Player 1 name"
  const NeedGroup: string := "Please come back with a group."
  const NeedBoth: string := "Group entries must include both members."
  const NoAtSign: string := "Do not include @ in email"
  const NeedFee: string := "Please go to Mr Smith (M22) To find out more. You cannot join."

  /** The messages of the five rules, in the order the rules are applied. */
  const RuleMessages: seq<string> := [MissingPlayer1, NeedGroup, NeedBoth, NoAtSign, NeedFee]

  lemma DomainHasOneAtSign()
    ensures Count('@', Domain) == 1
    ensures Domain[0] == '@'
  {
    DomainTailHasNoAtSign();
  }

  lemma DomainTailHasNoAtSign()
    ensures Count('@', Domain[1..]) == 0
  {
    assert '@' !in Domain[1..];
    CountZero('@', Domain[1..]);
  }

  /** `normalizeEmail`: `None` stands for the `null` that rejects a local part
      containing '@'; empty or all-white-space input normalises to the empty
      string; anything else becomes its trimmed, lower-cased local part at the
      institutional domain. */
  function NormalizeEmail(raw: string): (r: Option<string>)
    ensures r.None? <==> '@' in raw
    ensures r == Some("") <==> '@' !in raw && AllSpace(raw)
    ensures r.Some? && r.value != "" ==>
      && Trim(raw) != ""
      && r.value == Lower(Trim(raw)) + Domain
      && Count('@', r.value) == 1
      && r.value[|r.value| - |Domain|..] == Domain
  {
    if raw == "" then Some("")
    else if '@' in raw then None
    else
      var local := Lower(Trim(raw));
      TrimEmptyIffAllSpace(raw);
      if local == "" then Some("")
      else
        AddressHasOneAtSign(raw);
        Some(local + Domain)
  }

  /** The address built from an '@'-free local part holds exactly one '@'
      and ends with the domain. */
  lemma AddressHasOneAtSign(raw: string)
    requires '@' !in raw
    ensures var a := Lower(Trim(raw)) + Domain;
      && Count('@', a) == 1
      && a[|a| - |Domain|..] == Domain
  {
    var local := Lower(Trim(raw));
    LocalPartHasNoAtSign(raw);
    CountZero('@', local);
    CountAppend('@', local, Domain);
    DomainHasOneAtSign();
  }

  lemma LocalPartHasNoAtSign(raw: string)
    requires '@' !in raw
    ensures '@' !in Lower(Trim(raw))
  {
    LowerKeepsNonLetter(Trim(raw), '@');
    if '@' in Trim(raw) {
      TrimChars(raw, '@');
    }
  }

  /** Normalising a normalised address again: an empty one stays empty, a
      non-empty one now holds '@' and is rejected. */
  lemma NormalizeEmailTwice(raw: string)
    requires NormalizeEmail(raw).Some?
    ensures NormalizeEmail(raw).value == "" ==> NormalizeEmail(NormalizeEmail(raw).value) == Some("")
    ensures NormalizeEmail(raw).value != "" ==> NormalizeEmail(NormalizeEmail(raw).value).None?
  {
    var v := NormalizeEmail(raw).value;
    if v != "" {
      CountZero('@', v);
    }
  }

  /** The e-mail text a player record contributes (`p.email || ''`), or the
      empty string when the record itself is missing. */
  function RawEmail(p: Option<PlayerForm>): string {
    if p.Some? then OrElse(p.value.email, "") else ""
  }

  predicate PaysFee(p: Option<PlayerForm>) {
    p.Some? && p.value.fee == Some("yes")
  }

  predicate HasName(p: Option<PlayerForm>) {
    p.Some? && Truthy(p.value.name)
  }

  /** Rule `k` of the submission rules, stated on the raw payload: the player
      1 name, the group flag, the player 2 name, no '@' in either e-mail, and
      at least one fee paid. */
  predicate Violates(p: Payload, k: nat)
    requires k < 5
  {
    if k == 0 then !HasName(p.p1)
    else if k == 1 then p.group != Some("yes")
    else if k == 2 then !HasName(p.p2)
    else if k == 3 then '@' in RawEmail(p.p1) || '@' in RawEmail(p.p2)
    else !(PaysFee(p.p1) || PaysFee(p.p2))
  }

  /** The member the handler stores for one player record. */
  function BuildMember(f: PlayerForm, email: string): (m: Member)
    requires Truthy(f.name)
    ensures m.name == f.name.value && m.email == email
    ensures m.feePaid <==> f.fee == Some("yes")
    ensures Truthy(f.form) ==> m.form == f.form.value
    ensures !Truthy(f.form) ==> m.form == ""
    ensures Truthy(f.year) ==> m.year == f.year.value
    ensures !Truthy(f.year) ==> m.year == ""
    ensures Truthy(f.experience) ==> m.experience == f.experience.value
    ensures !Truthy(f.experience) ==> m.experience == ""
    ensures Truthy(f.reason) ==> m.reason == f.reason.value
    ensures !Truthy(f.reason) ==> m.reason == ""
    ensures Truthy(f.past) ==> m.past == f.past.value
    ensures !Truthy(f.past) ==> m.past == "no"
  {
    Member(f.name.value, OrElse(f.form, ""), OrElse(f.year, ""), OrElse(f.experience, ""),
           OrElse(f.past, "no"), OrElse(f.reason, ""), f.fee == Some("yes"), email)
  }

  /** The validation chain of the handler: the first violated rule decides the
      message; otherwise exactly two members are built, with normalised
      e-mails, and the group fee flag is the disjunction of theirs. */
  function Validate(p: Payload): (r: Result<Entry>)
    ensures forall k :: 0 <= k < 5 && Violates(p, k) && (forall j :: 0 <= j < k ==> !Violates(p, j))
              ==> r == Err(RuleMessages[k])
    ensures r.Ok? <==> forall k :: 0 <= k < 5 ==> !Violates(p, k)
    ensures r.Ok? ==>
      && HasName(p.p1) && HasName(p.p2)
      && NormalizeEmail(RawEmail(p.p1)).Some? && NormalizeEmail(RawEmail(p.p2)).Some?
      && |r.value.members| == 2
      && r.value.members[0] == BuildMember(p.p1.value, NormalizeEmail(RawEmail(p.p1)).value)
      && r.value.members[1] == BuildMember(p.p2.value, NormalizeEmail(RawEmail(p.p2)).value)
      && r.value.groupFeePaid == (r.value.members[0].feePaid || r.value.members[1].feePaid)
      && r.value.groupFeePaid
  {
    if p.p1.None? || !Truthy(p.p1.value.name) then
      assert Violates(p, 0);
      Err(MissingPlayer1)
    else if p.group != Some("yes") then
      assert !Violates(p, 0) && Violates(p, 1);
      Err(NeedGroup)
    else if p.p2.None? || !Truthy(p.p2.value.name) then
      assert !Violates(p, 0) && !Violates(p, 1) && Violates(p, 2);
      Err(NeedBoth)
    else
      var p1, p2 := p.p1.value, p.p2.value;
      var e1 := NormalizeEmail(OrElse(p1.email, ""));
      var e2 := NormalizeEmail(OrElse(p2.email, ""));
      assert !Violates(p, 0) && !Violates(p, 1) && !Violates(p, 2);
      if e1.None? || e2.None? then
        assert Violates(p, 3);
        Err(NoAtSign)
      else
        var paid1 := p1.fee == Some("yes");
        var paid2 := p2.fee == Some("yes");
        assert !Violates(p, 3);
        if !(paid1 || paid2) then
          assert Violates(p, 4);
          Err(NeedFee)
        else
          assert !Violates(p, 4);
          var members := [BuildMember(p1, e1.value), BuildMember(p2, e2.value)];
          Ok(Entry(members, members[0].feePaid || members[1].feePaid))
  }

  /** The fee gate: a payload that passes the first four rules is accepted
      exactly when at least one player's fee is "yes". */
  lemma FeeGate(p: Payload)
    requires forall k :: 0 <= k < 4 ==> !Violates(p, k)
    ensures Validate(p).Ok? <==> (PaysFee(p.p1) || PaysFee(p.p2))
    ensures Validate(p).Err? ==> Validate(p).message == NeedFee
  {
    assert !Violates(p, 0) && !Violates(p, 1) && !Violates(p, 2) && !Violates(p, 3);
  }

  /** An '@' in either e-mail is reported only after both names and the group
      flag are accepted, and is reported whatever the fees say. */
  lemma AtSignRejected(p: Payload)
    requires HasName(p.p1) && p.group == Some("yes") && HasName(p.p2)
    requires '@' in RawEmail(p.p1) || '@' in RawEmail(p.p2)
    ensures Validate(p) == Err(NoAtSign)
  {
    assert !Violates(p, 0) && !Violates(p, 1) && !Violates(p, 2) && Violates(p, 3);
  }

  /** A solo entry (group flag not "yes") with a player 1 name is always
      turned away with the group message, whatever else it holds. */
  lemma SoloEntryRejected(p: Payload)
    requires HasName(p.p1) && p.group != Some("yes")
    ensures Validate(p) == Err(NeedGroup)
  {
    assert !Violates(p, 0) && Violates(p, 1);
  }

  /** The handler with the store: a rejected payload leaves the store as it
      was; an accepted one appends exactly one group under a fresh id. */
  function Submit(st: Store, p: Payload, now: Timestamp): (r: (Store, Result<GroupId>))
    ensures Validate(p).Err? ==> r.0 == st && r.1 == Err(Validate(p).message)
    ensures Validate(p).Ok? ==>
      && r.1 == Ok(st.nextId)
      && r.0.nextId == st.nextId + 1
      && r.0.groups == st.groups + [Group(st.nextId, Validate(p).value.members, true, now)]
  {
    match Validate(p)
    case Err(msg) => (st, Err(msg))
    case Ok(entry) =>
      var g := Group(st.nextId, entry.members, entry.groupFeePaid, now);
      (Store(st.groups + [g], st.nextId + 1), Ok(g.id))
  }

  /** Submitting keeps ids unique and below the next id. */
  lemma SubmitKeepsStoreValid(st: Store, p: Payload, now: Timestamp)
    requires ValidStore(st)
    ensures ValidStore(Submit(st, p, now).0)
  {
  }
}

=== FILE: text.dfy ===
/** String helpers shared by the submission handler, the CSV export and the
    dashboard search: ASCII white-space trimming and lower-casing (the parts
    of JavaScript's `trim` and `toLowerCase` that the model covers),
    substring search, joining, and counting a character. */
module Text {

  /** The ASCII white-space characters removed by `String.prototype.trim`:
      tab, line feed, vertical tab, form feed, carriage return and space. */
  predicate IsSpace(c: char) {
    c == ' ' || (9 <= c as int <= 13)
  }

  predicate AllSpace(s: string) {
    forall k :: 0 <= k < |s| ==> IsSpace(s[k])
  }

  predicate IsUpper(c: char) {
    'A' <= c <= 'Z'
  }

  /** ASCII lower-casing of one character; every other character is kept. */
  function LowerChar(c: char): char {
    if IsUpper(c) then (c as int + 32) as char else c
  }

  function Lower(s: string): (r: string)
    ensures |r| == |s|
    ensures forall k :: 0 <= k < |s| ==> r[k] == LowerChar(s[k])
  {
    seq(|s|, k requires 0 <= k < |s| => LowerChar(s[k]))
  }

  /** Lower-casing leaves no upper-case letter, changes nothing but letters,
      and is idempotent. */
  lemma LowerProperties(s: string)
    ensures forall k :: 0 <= k < |s| ==> !IsUpper(Lower(s)[k])
    ensures forall k :: 0 <= k < |s| && !IsUpper(s[k]) ==> Lower(s)[k] == s[k]
    ensures Lower(Lower(s)) == Lower(s)
  {
  }

  /** Characters that are not upper-case letters survive lower-casing in
      place, and no other character turns into them. */
  lemma LowerKeepsNonLetter(s: string, c: char)
    requires !IsUpper(c) && !('a' <= c <= 'z')
    ensures c in Lower(s) <==> c in s
  {
    if c in s {
      var k :| 0 <= k < |s| && s[k] == c;
      assert Lower(s)[k] == c;
    }
    if c in Lower(s) {
      var k :| 0 <= k < |s| && Lower(s)[k] == c;
      assert s[k] == c;
    }
  }

  /** Number of white-space characters at the front of `s`: the position of
      the first other character, or `|s|` when there is none. */
  function Lead(s: string): (n: nat)
    ensures n <= |s| && (n == |s| || !IsSpace(s[n]))
    ensures forall k :: 0 <= k < n ==> IsSpace(s[k])
    decreases |s|
  {
    if |s| == 0 || !IsSpace(s[0]) then 0 else 1 + Lead(s[1..])
  }

  /** One past the last character of `s` that is not white space, or 0 when
      there is none. */
  function Tail(s: string): (n: nat)
    ensures n <= |s| && (n == 0 || !IsSpace(s[n - 1]))
    ensures forall k :: n <= k < |s| ==> IsSpace(s[k])
    decreases |s|
  {
    if |s| == 0 || !IsSpace(s[|s| - 1]) then |s| else Tail(s[..|s| - 1])
  }

  /** `String.prototype.trim` over ASCII white space: the result is a
      contiguous part of `s` with only white space around it, and it neither
      starts nor ends with white space. */
  function Trim(s: string): (r: string)
    ensures Lead(s) + |r| <= |s| && r == s[Lead(s)..Lead(s) + |r|]
    ensures forall k :: 0 <= k < Lead(s) ==> IsSpace(s[k])
    ensures forall k :: Lead(s) + |r| <= k < |s| ==> IsSpace(s[k])
    ensures r == [] || (!IsSpace(r[0]) && !IsSpace(r[|r| - 1]))
  {
    var a, b := Lead(s), Tail(s);
    if a == |s| then ""
    else
      assert a < b;
      s[a..b]
  }

  /** `Trim` yields the empty string exactly on all-white-space input. */
  lemma TrimEmptyIffAllSpace(s: string)
    ensures Trim(s) == [] <==> AllSpace(s)
  {
  }

  /** Every character of `Trim(s)` is a character of `s`. */
  lemma TrimChars(s: string, c: char)
    requires c in Trim(s)
    ensures c in s
  {
    var r := Trim(s);
    var k :| 0 <= k < |r| && r[k] == c;
    assert s[Lead(s) + k] == c;
  }

  /** `p` occurs in `s` as a contiguous run of characters (the reference
      meaning of a substring test). */
  ghost predicate Occurs(p: string, s: string) {
    exists i :: 0 <= i <= |s| - |p| && OccursAt(p, s, i)
  }

  ghost predicate OccursAt(p: string, s: string, i: nat)
    requires i + |p| <= |s|
  {
    s[i..i + |p|] == p
  }

  predicate StartsWith(s: string, p: string) {
    |p| <= |s| && s[..|p|] == p
  }

  /** Substring test by scanning the start positions left to right. */
  function Contains(s: string, p: string): bool
    decreases |s|
  {
    if StartsWith(s, p) then true
    else if |s| == 0 then false
    else Contains(s[1..], p)
  }

  /** The scanning test agrees with the reference meaning in both directions. */
  lemma {:induction false} ContainsIffOccurs(s: string, p: string)
    ensures Contains(s, p) <==> Occurs(p, s)
    decreases |s|
  {
    if StartsWith(s, p) {
      assert OccursAt(p, s, 0);
    } else if |s| == 0 {
    } else {
      ContainsIffOccurs(s[1..], p);
      if Occurs(p, s[1..]) {
        var i :| 0 <= i <= |s[1..]| - |p| && OccursAt(p, s[1..], i);
        OccursShift(p, s, i);
        assert OccursAt(p, s, i + 1);
      }
      if Occurs(p, s) {
        var i :| 0 <= i <= |s| - |p| && OccursAt(p, s, i);
        if i > 0 {
          OccursShift(p, s, i - 1);
          assert OccursAt(p, s[1..], i - 1);
        }
      }
    }
  }

  /** An occurrence in the tail of `s` is an occurrence in `s` one position
      further on, and conversely. */
  lemma OccursShift(p: string, s: string, i: nat)
    requires |s| > 0 && i + |p| <= |s| - 1
    ensures OccursAt(p, s[1..], i) <==> OccursAt(p, s, i + 1)
  {
    assert s[1..][i..i + |p|] == s[i + 1..i + 1 + |p|];
  }

  /** JavaScript's `Array.prototype.join(sep)` over strings. */
  function JoinWith(sep: char, parts: seq<string>): string
    decreases |parts|
  {
    if |parts| == 0 then ""
    else if |parts| == 1 then parts[0]
    else parts[0] + [sep] + JoinWith(sep, parts[1..])
  }

  /** Joining two or more parts, followed by `rest`, is the first part, the
      separator, then the join of the others followed by `rest`. */
  lemma JoinCons(sep: char, parts: seq<string>, rest: string)
    requires |parts| > 1
    ensures JoinWith(sep, parts) + rest == parts[0] + ([sep] + (JoinWith(sep, parts[1..]) + rest))
  {
  }

  /** A flag as the export and the dashboard print it. */
  function YesNo(b: bool): string {
    if b then "yes" else "no"
  }

  /** Number of occurrences of `c` in `s`. */
  function Count(c: char, s: string): nat
    decreases |s|
  {
    if |s| == 0 then 0 else (if s[0] == c then 1 else 0) + Count(c, s[1..])
  }

  lemma {:induction false} CountAppend(c: char, a: string, b: string)
    ensures Count(c, a + b) == Count(c, a) + Count(c, b)
    decreases |a|
  {
    if |a| == 0 {
      assert a + b == b;
    } else {
      assert (a + b)[1..] == a[1..] + b;
      CountAppend(c, a[1..], b);
    }
  }

  lemma {:induction false} CountZero(c: char, s: string)
    ensures Count(c, s) == 0 <==> c !in s
    decreases |s|
  {
    if |s| > 0 {
      CountZero(c, s[1..]);
      assert s == [s[0]] + s[1..];
    }
  }
}
